=== FILE: README.md ===
# InvoiceXLetter, modelled in Dafny

InvoiceXLetter turns an invoice PDF into a letter page for a DL window
envelope. It does this in three steps:

- It pulls the customer's address block out of the invoice by position.
- It corrects a French address against La Poste's address-control service.
- It computes where the address goes on an A4 page so that it shows through
  the envelope window.

This project models those three steps as pure Dafny functions over
immutable data and proves what they promise.

- **Extractor** (`extractor.dfy`) models `extract_text_custom`. The PDF
  layout pass is an input: a list of pages. Each page is either its layout
  elements (text boxes holding their text lines, and other elements) or the
  message of the exception raised while reading it. A box's text is its
  stripped, non-empty lines joined by "\n". The three strategies (contains,
  following, preceding) are checked box by box, exactly as in the source,
  including Python's negative list indexing when `skip` is negative. The
  method `ExtractTextCustom` runs the source's two loops. The lemmas relate
  it to reference definitions: a filter over matching boxes, page
  concatenation, and the error path that becomes "Error: " + message.
- **ManualEdit** (`manual_edit.dfy`) models `manual_edit`. The host system,
  the path of the temporary file and the successive contents the polling loop reads back are inputs.
  Polling a finite list of reads stands in for the operator's unbounded
  editing session. The first read that differs from what was written ends
  the session. A session where no read differs is reported as
  `StillWaiting`, the state in which the source would still be polling.
- **CheckAddressFr** (`check_address.dfy`) models `check_address`. The
  inputs are the API key, the two lookups (a list lookup and a detail
  lookup), and the operator's answers. The model covers the key gate, the
  query preparation, the branching on the number of hits, the numbered
  choice, the lieu-dit heuristic and the two ways of finishing the address.
  Every exception the routine raises itself, and the `IndexError` of its
  query preparation, is a `Failure`. Exceptions raised inside the HTTP
  client, `input()` or the file read are not modelled (see "Left out").
- **Creator** (`creator.dfy`) models the geometry of `create_window_page`.
  It computes the window's position from the display settings, converts
  millimetres to points exactly (the scale factor is a `real`), places one
  baseline per line of text, and computes the optional border rectangle.
- **Lines**, **PyStrings**, **Casing** and **Numerals** model the Python
  string builtins these steps rely on:
  - `splitlines`, `"\n".join`, and the newline translation of a text-mode
    read;
  - `strip`, the `in` test, and the split at the first space;
  - `upper`, `lower` and `title`;
  - `isdigit`, `int` and `str` on natural numbers.

  `splitlines` uses Python's full set of line boundaries, with "\r\n"
  counted as one boundary. `strip` uses Python's full whitespace set.

Points worth knowing about the modelled code:

- `extract_text_custom` takes a single `skip`. Nothing in the modelled
  files loops over `skip` values, so the model states only properties that
  hold for every `skip`.
- `skip` is a Python `int`, so the model allows negative values.
  - With `skip = -1`, both positional strategies behave like the contains
    strategy (`SkipMinusOneIsContains`).
  - Below -1, a subscript can wrap around from the end of the box list, or
    raise `IndexError`. The whole result of `extract_text_custom` then
    reads "Error: list index out of range", and the text of earlier pages
    is discarded.
- The border drawn by `create_window_page` is as tall as the text lines.
  It does not use the configured window `height`.

## Model

| member | source | states |
|---|---|---|
| Lines.ReadText | helper/check_address_fr.py:43-44 | a text-mode read returns contents without "\r"; contents with no "\r" are returned unchanged |
| Lines.ReadTextExamples | helper/check_address_fr.py:43-44 | "\r\n" and a lone "\r" each become one "\n" |
| Lines.ReadTextPrefix | helper/check_address_fr.py:43-44 | a read changes nothing before the first "\r" |
| Lines.ReadTextAtBreak | helper/check_address_fr.py:43-44 | across the first line boundary, the line before it is kept and the boundary becomes one character other than "\r" |
| Lines.ReadTextKeepsLines | helper/check_address_fr.py:43-49 | the lines `splitlines` finds are the same before and after a text-mode read |
| Lines.SplitLinesAt | helper/check_address_fr.py:49 | a line, one boundary other than "\r", then more text: `splitlines` cuts exactly at that boundary |
| Lines.SplitLinesHaveNoBreaks | helper/check_address_fr.py:59 | no line returned by `splitlines` contains a line boundary |
| Lines.BreakIndexOfLine | helper/check_address_fr.py:59 | after a line without boundaries, the first boundary is the "\n" that ends it |
| Lines.SplitJoin | helper/check_address_fr.py:59-61 | break-free lines, the last not empty, joined by "\n" and split again give back the same lines |
| Lines.SplitJoinNewline | helper/check_address_fr.py:48-49 | a "\n" after the joined lines creates no extra line when they are split again |
| Lines.SplitSingleLine | helper/creator.py:60 | a non-empty text without line boundaries is one line |
| Lines.BreakIndex | helper/check_address_fr.py:59 | the first line boundary of a text: no boundary before it, and a boundary at it unless it is the end of the text |
| PyStrings.Strip | helper/extractor.py:41 | the stripped line is no longer than the line and neither starts nor ends with whitespace |
| PyStrings.LeadingSpace | helper/extractor.py:41 | the leading whitespace run is no longer than the line |
| PyStrings.TrailingSpace | helper/extractor.py:41 | the trailing whitespace run is no longer than the line |
| PyStrings.LeadingSpaceIsSpace | helper/extractor.py:41 | the leading run `strip` removes is all whitespace, and the character after it is not whitespace |
| PyStrings.TrailingSpaceIsSpace | helper/extractor.py:41 | the trailing run `strip` removes is all whitespace, and the character before it is not whitespace |
| PyStrings.StripEnds | helper/extractor.py:41 | what is left between the two runs is empty or has a non-space first and last character |
| PyStrings.TrailingSpaceAfter | helper/extractor.py:41 | the trailing whitespace of the text after the leading run is whitespace at the end of the whole line |
| PyStrings.StripCutsOnlySpace | helper/extractor.py:41 | the stripped line is a slice of the line, and only whitespace lies on either side of it |
| PyStrings.ContainsAt | helper/extractor.py:49 | `search in text` holds whenever some slice of the text equals the search string |
| PyStrings.MissingCharNotContained | helper/extractor.py:49 | a text lacking a character of the search string does not contain the search string |
| PyStrings.BeforeFirstSpace | helper/check_address_fr.py:61 | the cut of the last query line is a prefix without spaces that stops at the first space or at the end of the line |
| Casing.ToUpper | helper/check_address_fr.py:114 | upper-casing a character keeps it cased or uncased, changes only lower-case letters, and inverts lower-casing |
| Casing.ToLower | helper/check_address_fr.py:95 | lower-casing a character keeps it cased or uncased, changes only upper-case letters, and yields a lower-case letter from an upper-case one |
| Casing.Upper | helper/check_address_fr.py:114 | `upper` keeps the length and upper-cases each character |
| Casing.Lower | helper/check_address_fr.py:117 | `lower` keeps the length and lower-cases each character |
| Casing.TitleFrom | helper/check_address_fr.py:122 | title-casing keeps the length |
| Casing.TitleAt | helper/check_address_fr.py:122 | a cased character is upper-cased when the previous character is uncased, and lower-cased otherwise |
| Casing.TitleKeepsCasedness | helper/check_address_fr.py:122 | title-casing never changes whether a position holds a cased character |
| Casing.TitleKeepsUncased | helper/check_address_fr.py:130 | uncased characters, line boundaries among them, survive title-casing unchanged |
| Casing.ToUpperIdempotent | helper/check_address_fr.py:114 | upper-casing twice equals upper-casing once |
| Casing.ToLowerIdempotent | helper/check_address_fr.py:117 | lower-casing twice equals lower-casing once |
| Casing.TitleIdempotent | helper/check_address_fr.py:122 | title-casing an already title-cased line changes nothing |
| Casing.LowerIsY | helper/check_address_fr.py:95 | `x.lower() == "y"` holds exactly for "y" and "Y" |
| Numerals.Show | helper/check_address_fr.py:87 | `str(n)` is a digit string without a leading zero |
| Numerals.ValueOfShow | helper/check_address_fr.py:85-87 | `int(str(n)) == n` |
| Numerals.ShowInjective | helper/check_address_fr.py:87 | different numbers have different numerals |
| Numerals.LeadingDigitsOfNumeral | helper/check_address_fr.py:75 | a numeral followed by a non-digit is exactly the text's leading run of digits |
| Numerals.LeadingZero | helper/check_address_fr.py:85 | `int` ignores a leading zero |
| Numerals.DigitChar | helper/check_address_fr.py:85 | the digit written for a value below ten is a digit whose value it is |
| Extractor.TextBoxesAppend | helper/extractor.py:35-37 | the text boxes of two runs of elements are those of the first followed by those of the second, so layout order is kept |
| Extractor.TextBoxes | helper/extractor.py:35-37 | every text box of the page is kept, and nothing else |
| Extractor.NonEmpty | helper/extractor.py:44 | the filter keeps no empty line, never grows the list, and leaves nothing exactly when every line is empty |
| Extractor.NonEmptySnoc | helper/extractor.py:44 | one line more at the end is kept, after the lines kept before, exactly when it is not empty |
| Extractor.Stripped | helper/extractor.py:40-43 | one stripped line per text line of the box, in order |
| Extractor.NonEmptyNoBreaks | helper/extractor.py:44 | dropping empty lines keeps every remaining line free of line boundaries |
| Extractor.KeptLines | helper/extractor.py:40-44 | at most the box's line count, all non-empty; none are left exactly when every line strips to empty |
| Extractor.BoxText | helper/extractor.py:39-44 | a box's text is "" exactly when all its lines strip to empty; splitting it again gives its kept lines |
| Extractor.KeptLinesRoundTrip | helper/extractor.py:44 | the joined kept lines split back into the kept lines |
| Extractor.KeptLinesNoBreaks | helper/extractor.py:40-44 | kept lines carry no line boundary when the stripped lines carry none |
| Extractor.JoinNonEmpty | helper/extractor.py:44 | joining non-empty lines yields "" only for no lines |
| Extractor.PyIndex | helper/extractor.py:53 | a list subscript succeeds exactly for `-len <= i < len`, yields `s[i]` for `i >= 0` and `s[len + i]` for `i < 0`, and otherwise raises `IndexError` |
| Extractor.ExtractTextCustom | helper/extractor.py:18-62 | the source's page loop returns the accumulated output of all pages, or "Error: " + the first failure |
| Extractor.SelectPieces | helper/extractor.py:46-58 | the per-box loop builds the page's result list box by box, stopping at the first failed subscript |
| Extractor.PiecesErrorSticks | helper/extractor.py:47-58 | once a box's subscript has failed, later boxes do not change the page result |
| Extractor.ErrorSticks | helper/extractor.py:61-62 | once a page has failed, later pages do not change the result |
| Extractor.AppendAssociative | helper/extractor.py:59 | writing outputs to the buffer is associative, and the first failure wins |
| Extractor.PagesAppend | helper/extractor.py:31-33 | the output for two runs of pages is the output of the first followed by that of the second |
| Extractor.AppendKeepsPrefix | helper/extractor.py:59 | a successful write keeps what the buffer held as its prefix |
| Extractor.EarlierPagesKept | helper/extractor.py:59-60 | when pages a + b all go through, pages a alone go through too and their output begins the whole output |
| Extractor.UnreadablePageIsReported | helper/extractor.py:61-62 | the first unreadable page makes the result "Error: " + its message |
| Extractor.ReadablePagesSucceed | helper/extractor.py:33-60 | with `skip >= 0`, a document whose pages all read never yields an error |
| Extractor.SelectWhere | helper/extractor.py:48-50 | reference filter: at most one value per key |
| Extractor.SelectWhereMembers | helper/extractor.py:49-50 | the filter's values are exactly those whose key contains the search string |
| Extractor.SelectWhereSnoc | helper/extractor.py:47 | extending the keys and values by one pair appends that value to the filter exactly when its key contains the search string |
| Extractor.SelectWhereNoMatch | helper/extractor.py:49-50 | no key containing the search string, no value selected |
| Extractor.SelectWhereSlices | helper/extractor.py:47 | extending two equally long runs of boxes by the next box each adds that value exactly when its key contains the search string |
| Extractor.ContainsSelectsMatches | helper/extractor.py:48-50 | the contains strategy yields, in order, every box text containing the search string, whatever `skip` is |
| Extractor.FollowingStep | helper/extractor.py:51-54 | with `skip >= 0`, a matching box contributes the box `1 + skip` later when it exists, and nothing otherwise |
| Extractor.PrecedingStep | helper/extractor.py:55-58 | with `skip >= 0`, a matching box contributes the box `1 + skip` earlier when it exists, and nothing otherwise |
| Extractor.FollowingExtendIn | helper/extractor.py:52-54 | one box more whose follower is on the page adds that follower exactly when the box matches |
| Extractor.FollowingExtendOut | helper/extractor.py:52 | one box more whose follower is off the page adds nothing |
| Extractor.PrecedingExtendIn | helper/extractor.py:56-58 | one box more whose predecessor is on the page adds that predecessor exactly when the box matches |
| Extractor.PrecedingExtendOut | helper/extractor.py:56 | while `idx - 1 - skip < 0`, the preceding strategy has selected nothing |
| Extractor.FollowingSelectsAfterMatches | helper/extractor.py:51-54 | the following strategy yields the box `1 + skip` after each matching box that has one, in order |
| Extractor.PrecedingSelectsBeforeMatches | helper/extractor.py:55-58 | the preceding strategy yields the box `1 + skip` before each matching box that has one, in order |
| Extractor.NonNegativeSkipSucceeds | helper/extractor.py:52-58 | with `skip >= 0`, no subscript on a page fails |
| Extractor.LastBoxFollowsNothing | helper/extractor.py:52 | a match in the last box alone contributes nothing to the following strategy |
| Extractor.SkipMinusOneIsContains | helper/extractor.py:51-58 | with `skip = -1`, both positional strategies give what the contains strategy gives |
| Extractor.PiecesBounded | helper/extractor.py:47-58 | a page contributes at most one piece per matching box, and every piece is one of its box texts |
| Extractor.NoMatchNoPieces | helper/extractor.py:47-58 | a page where no box matches contributes nothing |
| Extractor.NoMatchIsEmpty | helper/extractor.py:46-60 | when no box of any page matches, the result is "", not an error |
| Extractor.PieceInOutput | helper/extractor.py:59 | every piece of a page is contained in what the page writes |
| Extractor.OffsetOf | helper/extractor.py:59 | every piece appears as a slice of the page's output |
| Extractor.ScenarioMatches | helper/extractor.py:49 | "Ref" is found in the reference box and in neither the name box nor the address box |
| Extractor.FollowingThreeBoxes | helper/extractor.py:51-54 | in boxes a, b, c where only a matches, skip 0 yields b and skip 1 yields c |
| Extractor.FollowingScenario | helper/extractor.py:51-54 | after a "Ref" box, skip 0 yields the name box and skip 1 yields the address box |
| ManualEdit.EditorCommand | helper/check_address_fr.py:31-39 | Windows, macOS and other POSIX hosts get an editor command naming the quoted file; any other host gets none |
| ManualEdit.FirstChange | helper/check_address_fr.py:41-45 | the poll finds nothing exactly when every read shows the written text; what it finds differs from it |
| ManualEdit.FirstChangeIsFirst | helper/check_address_fr.py:42-44 | the poll reports one of the reads, and every earlier read still showed the written text |
| ManualEdit.Poll | helper/check_address_fr.py:41-45 | the polling loop stops at the first read that differs from the written text |
| ManualEdit.Edit | helper/check_address_fr.py:19-50 | a list comes back as a list and a text as a different text; a host without an editor command fails with "Unsupported OS"; a session that never changes the file is still waiting |
| ManualEdit.EditGivesFirstChangedRead | helper/check_address_fr.py:41-50 | a result is the first read that differs from the written text, every earlier read still showing it, and is split into lines when a list was edited |
| ManualEdit.EditedListComesBack | helper/check_address_fr.py:25-28 | a list edited into other break-free lines comes back as exactly those lines |
| ManualEdit.NoBreaksNoCarriageReturn | helper/check_address_fr.py:28 | lines without line boundaries join into a text without "\r" |
| ManualEdit.ListEditExample | helper/check_address_fr.py:48-49 | `["a","b"]` edited to "a\nc" comes back as `["a","c"]` |
| ManualEdit.TrailingNewlineEndsWait | helper/check_address_fr.py:42-49 | a save that only adds a final "\n" ends the wait and gives back the same list |
| ManualEdit.CarriageReturnEndsWaitAtOnce | helper/check_address_fr.py:41-44 | a written text holding "\r" never reads back as itself, so the first read ends the wait |
| CheckAddressFr.Message | helper/check_address_fr.py:74-108 | a failed request's text starts with "Error ", has the status numeral after it and ends with the reply; "Address not found: " and "Invalid choice: " are followed by exactly the text and the answer |
| CheckAddressFr.MessageInjective | helper/check_address_fr.py:74-108 | different failures carry different texts |
| CheckAddressFr.ServiceErrorTextInjective | helper/check_address_fr.py:74-75 | the text of a failed request gives back its status and its reply |
| CheckAddressFr.PrepareQuery | helper/check_address_fr.py:59-61 | the query exists only for a text of at least three lines; its last line has no space; otherwise `IndexError` |
| CheckAddressFr.QueryFromMiddleLines | helper/check_address_fr.py:59-61 | the query is the text's lines minus the first and last, with the last cut at its first space |
| CheckAddressFr.MiddleSurvivesJoin | helper/check_address_fr.py:59 | the middle lines, joined and split again, come back unchanged when the last of them is not empty |
| CheckAddressFr.ShortTextHasNoQuery | helper/check_address_fr.py:61 | a text of fewer than three lines raises `IndexError` |
| CheckAddressFr.ParseSelection | helper/check_address_fr.py:85-90 | every digit string whose value k is in 1..n picks hit k - 1, whatever its leading zeros, and a pick comes only from such an answer; manual entry needs exactly the numeral of n + 1, so a differently spelled n + 1 is invalid |
| CheckAddressFr.InvalidSelections | helper/check_address_fr.py:85-90 | an answer that is not a digit string, or whose value is 0 or above n + 1, is an invalid choice |
| CheckAddressFr.SelectByNumber | helper/check_address_fr.py:85-86 | typing k, for 1 <= k <= n, picks hit k - 1 |
| CheckAddressFr.SelectManualEntry | helper/check_address_fr.py:87-88 | typing n + 1 asks for manual entry |
| CheckAddressFr.LeadingZeroSelections | helper/check_address_fr.py:85-90 | "0k" still picks hit k - 1, but "0" followed by the numeral of n + 1 is an invalid choice |
| CheckAddressFr.ManualEntryRoute | helper/check_address_fr.py:88 | manual entry yields exactly one edited text |
| CheckAddressFr.ChooseRoute | helper/check_address_fr.py:79-96 | an automatic route always uses the code of one of the hits |
| CheckAddressFr.ApplyLieuDit | helper/check_address_fr.py:111-114 | a record without lieu-dit, for a query of more than two lines, gains the first query line as lieu-dit and its upper-cased form in front of the block; otherwise the record is unchanged |
| CheckAddressFr.Finalise | helper/check_address_fr.py:122 | the address starts with the title-cased first line, and reads back as that line followed by the block |
| CheckAddressFr.JoinStartsWithFirst | helper/check_address_fr.py:130 | a joined text starts with its first line |
| CheckAddressFr.FinaliseRoundTrip | helper/check_address_fr.py:122 | the finished address splits back into the title-cased first line followed by the block |
| CheckAddressFr.TitleNoBreaks | helper/check_address_fr.py:122 | the title-cased first line keeps its length and stays free of line boundaries |
| CheckAddressFr.Flatten | helper/check_address_fr.py:123-129 | flattening text items gives the texts, one per item, in order |
| CheckAddressFr.FlattenAppend | helper/check_address_fr.py:125-129 | flattening keeps the order of the items |
| CheckAddressFr.FinishAuto | helper/check_address_fr.py:98-122 | a failed detail lookup raises its status and body; only that and a failed edit are errors; a finished address starts with the title-cased first line |
| CheckAddressFr.AfterListLookup | helper/check_address_fr.py:74-130 | a status other than 200 raises that status and body; "Address not found" with the text exactly for an empty answer; "Invalid choice" exactly for a bad pick among several hits; never `IndexError`; a result starts with the title-cased first line |
| CheckAddressFr.CheckAddress | helper/check_address_fr.py:53-130 | without a valid key, `q` comes back unchanged; a failed list lookup raises its status and body; `IndexError`, "Address not found" and "Invalid choice" each occur exactly under their conditions; a result starts with the title-cased first line |
| CheckAddressFr.PickedHitIsLookedUp | helper/check_address_fr.py:85-101 | picking hit k sends that hit's code to the detail lookup |
| CheckAddressFr.ConfirmedHitIsLookedUp | helper/check_address_fr.py:94-100 | a single hit confirmed with "y" or "Y" sends that hit's code to the detail lookup |
| CheckAddressFr.KeptRecordIsFinalised | helper/check_address_fr.py:107-122 | a record whose lieu-dit is kept, or one without lieu-dit for a query of at most two lines, gives the title-cased first line followed by the record's address block, joined by "\n" |
| CheckAddressFr.ManualOptionUsesEditor | helper/check_address_fr.py:87-130 | the manual option opens the editor on an empty text and puts its result after the first line |
| CheckAddressFr.DeclinedHitSkipsDetail | helper/check_address_fr.py:91-98 | with one hit, any answer but "y"/"Y" goes to manual entry, and the result does not depend on the detail lookup |
| CheckAddressFr.SynthesisedLieuDitLeadsBlock | helper/check_address_fr.py:111-122 | a synthesised lieu-dit that is kept comes out, upper-cased, right after the first line |
| CheckAddressFr.RejectedLieuDitIsEdited | helper/check_address_fr.py:111-122 | a lieu-dit the operator does not keep, whether the record's own or synthesised from the query, sends the block (with any synthesised line) through the editor as a list |
| Creator.WindowLeftMm | helper/creator.py:39 | the window's left edge plus its width plus the right margin is the page width of 210 mm |
| Creator.WindowTopMm | helper/creator.py:40 | the window's top plus the top margin is the page height of 297 mm |
| Creator.CreateWindowPage | helper/creator.py:33-71 | one string per line of text, in order, at x0 and `y_top - 14 i`; no border when it is off; otherwise a border at x0, `width * 2.83465` wide, `14 n` tall, with its top at `y_top` |
| Creator.DrawLines | helper/creator.py:60-63 | the drawing loop draws exactly the page's strings |
| Creator.LinesDescend | helper/creator.py:61-63 | consecutive lines share their left edge and are exactly 14 pt apart |
| Creator.BorderSitsInMargins | helper/creator.py:66-71 | the border's right edge is `(210 - margin_right) * 2.83465` and its top is `(297 - margin_top) * 2.83465` |
| Creator.LastLineRestsOnBorder | helper/creator.py:62-70 | the border's bottom is one line height below the last baseline |
| Creator.EmptyTextDrawsNothing | helper/creator.py:60-71 | an empty text draws no string and a border of height 0 at the window's top |

## Left out

- The PDF layout pass (pdfminer's `extract_pages` and `LTTextBox`) is an
  input. Each page is given as its elements or as the message of the
  exception raised while reading it.
- The following are inputs, not modelled behaviour:
  - the HTTP requests to La Poste;
  - `input()` prompts;
  - the temporary file, `os.system` and the external editor;
  - `time.sleep`.
- The unbounded polling loop of `manual_edit` is a finite list of reads.
  When no read differs, the result is `StillWaiting` rather than a poll
  that never ends.
- `address_integrity_check` is not modelled. It delegates to Python's `re`
  engine in verbose mode.
- A retry over increasing `skip` values that re-validates the extracted
  address is not modelled: `extract_text_custom` takes one `skip`, and no
  modelled file loops over it.
- The following are not modelled:
  - JSON configuration loading and the regex file (`helper/config.py`);
  - `merge_pdfs`;
  - `register_font.py`;
  - the entry point `__main__.py`, which calls `extract_text_custom` without
    `skip`;
  - the text-dump tools under `tests/`.
- `create_window_page` also chooses a font, strokes the border in light
  grey and writes the PDF. None of that is modelled; the page is the list
  of strings drawn and the border rectangle.
- Floating point is not modelled. Millimetres are converted to points with
  the exact `real` 2.83465, not IEEE doubles.
- Exceptions raised outside the routine's own code escape `check_address`
  and are not modelled: `Timeout` or `ConnectionError` from `requests.get`
  (helper/check_address_fr.py:63-72 and 100-106), `EOFError`
  from `input()`, and `UnicodeDecodeError` from reading the edited file in
  `manual_edit`. The lookups and the operator's answers always answer.
- The model assumes well-formed API answers. It does not model JSON
  decoding errors, missing keys, or a `null` lieu-dit from the detail
  lookup.
- `CheckAddressFr.Message` gives its own text for `StillWaiting`, because
  the source raises nothing there: it keeps polling.
- Casing.Upper: the casing tables cover ASCII, À–ÿ except × and ÷, Œ/œ
  and Ÿ only, where Python applies the full Unicode tables. The Latin-1
  letters ª, µ and º are uncased in the model, so `'µ'.upper() == 'Μ'` is
  not modelled. Other letters, and multi-character mappings such as
  ß → SS, are left unchanged.
- Casing.Lower: the same tables as `Casing.Upper`. A letter outside them,
  such as the Greek 'Μ', is left unchanged where Python lower-cases it.
- Casing.TitleFrom: the same tables as `Casing.Upper`. Because ª, µ and º
  count as uncased, the model title-cases "µb" to "µB" where Python gives
  "Μb".
- Numerals.Value: `isdigit` and `int` accept ASCII digits only. Python's
  `isdigit` also accepts other Unicode decimal digits, which `int` reads,
  and non-decimal digits such as '²', on which `int` raises `ValueError`
  (helper/check_address_fr.py:85). The model answers `InvalidChoice` for
  both.

=== FILE: casing.dfy ===
/** Python's `str.upper()`, `str.lower()` and `str.title()` over the letters
    that French addresses use: ASCII, the Latin-1 letters À–ÿ, Œ/œ and Ÿ.
    Every other character counts as uncased and is left as it is. */
module Casing {

  predicate IsUpper(c: char) {
    || ('A' <= c <= 'Z')
    || ('\U{C0}' <= c <= '\U{DE}' && c != '\U{D7}')
    || c == '\U{152}' || c == '\U{178}'
  }

  /** ß (U+00DF) is lower-case but has no single-character upper case;
      it is left unchanged by `ToUpper`. */
  predicate IsLower(c: char) {
    || ('a' <= c <= 'z')
    || ('\U{DF}' <= c <= '\U{FF}' && c != '\U{F7}')
    || c == '\U{153}'
  }

  predicate IsCased(c: char) {
    IsUpper(c) || IsLower(c)
  }

  function ToUpper(c: char): (r: char)
    ensures IsCased(r) == IsCased(c)
    ensures !IsLower(c) ==> r == c
    ensures IsLower(c) && c != '\U{DF}' ==> IsUpper(r) && ToLower(r) == c
  {
    if 'a' <= c <= 'z' || ('\U{E0}' <= c <= '\U{FE}' && c != '\U{F7}') then
      (c as int - 32) as char
    else if c == '\U{FF}' then '\U{178}'
    else if c == '\U{153}' then '\U{152}'
    else c
  }

  function ToLower(c: char): (r: char)
    ensures IsCased(r) == IsCased(c)
    ensures !IsUpper(c) ==> r == c
    ensures IsUpper(c) ==> IsLower(r)
  {
    if 'A' <= c <= 'Z' || ('\U{C0}' <= c <= '\U{DE}' && c != '\U{D7}') then
      (c as int + 32) as char
    else if c == '\U{178}' then '\U{FF}'
    else if c == '\U{152}' then '\U{153}'
    else c
  }

  /** `s.upper()`. */
  function Upper(s: string): (r: string)
    ensures |r| == |s|
    ensures forall k :: 0 <= k < |s| ==> r[k] == ToUpper(s[k])
  {
    if |s| == 0 then "" else [ToUpper(s[0])] + Upper(s[1..])
  }

  /** `s.lower()`. */
  function Lower(s: string): (r: string)
    ensures |r| == |s|
    ensures forall k :: 0 <= k < |s| ==> r[k] == ToLower(s[k])
  {
    if |s| == 0 then "" else [ToLower(s[0])] + Lower(s[1..])
  }

  /** The title-casing loop: a character is lower-cased when the character
      before it (in the input) is cased, and upper-cased otherwise;
      `afterCased` says whether the text before `s` ended in a cased
      character. */
  function TitleFrom(s: string, afterCased: bool): (r: string)
    ensures |r| == |s|
  {
    if |s| == 0 then ""
    else
      var c := if afterCased then ToLower(s[0]) else ToUpper(s[0]);
      [c] + TitleFrom(s[1..], IsCased(s[0]))
  }

  /** `s.title()`. */
  function Title(s: string): string {
    TitleFrom(s, false)
  }

  /** What `title` does to each position: only the cased-ness of the
      preceding input character matters. */
  lemma {:induction false} TitleAt(s: string, afterCased: bool, k: nat)
    requires k < |s|
    ensures TitleFrom(s, afterCased)[k]
            == (if (if k == 0 then afterCased else IsCased(s[k - 1]))
                then ToLower(s[k]) else ToUpper(s[k]))
  {
    if k > 0 {
      TitleAt(s[1..], IsCased(s[0]), k - 1);
    }
  }

  lemma {:induction false} TitleKeepsCasedness(s: string, afterCased: bool)
    ensures forall k :: 0 <= k < |s| ==> IsCased(TitleFrom(s, afterCased)[k]) == IsCased(s[k])
  {
    forall k | 0 <= k < |s|
      ensures IsCased(TitleFrom(s, afterCased)[k]) == IsCased(s[k])
    {
      TitleAt(s, afterCased, k);
    }
  }

  /** Characters outside the casing tables, line boundaries among them,
      pass through `title` unchanged. */
  lemma TitleKeepsUncased(s: string, k: nat)
    requires k < |s| && !IsCased(s[k])
    ensures Title(s)[k] == s[k]
  {
    TitleAt(s, false, k);
  }

  lemma ToUpperIdempotent(c: char)
    ensures ToUpper(ToUpper(c)) == ToUpper(c)
  {
  }

  lemma ToLowerIdempotent(c: char)
    ensures ToLower(ToLower(c)) == ToLower(c)
  {
  }

  /** Title-casing an already title-cased string changes nothing. */
  lemma {:induction false} TitleIdempotent(s: string)
    ensures Title(Title(s)) == Title(s)
  {
    var t := Title(s);
    TitleKeepsCasedness(s, false);
    forall k | 0 <= k < |s|
      ensures Title(t)[k] == t[k]
    {
      TitleAt(s, false, k);
      TitleAt(t, false, k);
      ToUpperIdempotent(s[k]);
      ToLowerIdempotent(s[k]);
      if (if k == 0 then false else IsCased(s[k - 1])) {
        assert ToLower(ToLower(s[k])) == ToLower(s[k]);
      } else {
        assert ToUpper(ToUpper(s[k])) == ToUpper(s[k]);
      }
    }
  }

  /** The confirmation test `x.lower() == "y"` accepts exactly "y" and "Y". */
  lemma LowerIsY(x: string)
    ensures Lower(x) == "y" <==> (x == "y" || x == "Y")
  {
    if Lower(x) == "y" {
      assert |x| == 1 && ToLower(x[0]) == 'y';
      assert x == [x[0]];
    }
    if x == "Y" {
      assert Lower(x)[0] == 'y';
    }
    if x == "y" {
      assert Lower(x)[0] == 'y';
    }
  }

}

=== FILE: check_address.dfy ===
/** `check_address`: correction of a French address through La Poste's
    address-control service. The API key, the host, the two lookups and
    the operator's answers are inputs; every exception the routine raises
    itself, and the IndexError of its query preparation, is an `Err`. */
module CheckAddressFr {
  import opened Results
  import opened Lines
  import C = Casing
  import N = Numerals
  import PS = PyStrings
  import ME = ManualEdit

  /** Shorter keys (and a missing key) switch the correction off. */
  const MinKeyLength: nat := 10
  /** The lieu-dit is synthesised only for queries of more than this many lines. */
  const LieuDitQueryLines: nat := 2
  const HttpOk: nat := 200

  /** One hit of the list lookup `GET /adresses?q=...`. */
  datatype Suggestion = Suggestion(adresse: string, code: string)

  datatype ListResponse = ListResponse(status: nat, text: string, results: seq<Suggestion>)

  /** The authoritative record of the detail lookup `GET /adresses/<code>`. */
  datatype AddressRecord = AddressRecord(lieuDit: string, blocAdresse: seq<string>)

  datatype DetailResponse = DetailResponse(status: nat, text: string, record: AddressRecord)

  /** The outside world of one run: `OKAPI_API_KEY`, the host the editor
      runs on, and the answers of the two endpoints. */
  datatype Services = Services(apiKey: Option<string>, host: ME.Machine,
                               listLookup: seq<string> -> ListResponse,
                               detailLookup: string -> DetailResponse)

  /** The operator's side of one run: the answer to the numbered choice
      (several hits) or to "Use auto?" (one hit), the answer to "Keep?",
      and what the polling loop reads back in each editing session. */
  datatype Operator = Operator(choice: string, confirm: string, keep: string,
                               entrySnapshots: seq<string>, blockSnapshots: seq<string>)

  /** The exceptions `check_address` lets escape. */
  datatype Failure =
    | ServiceError(status: nat, body: string)
    | AddressNotFound(address: string)
    | InvalidChoice(answer: string)
    | QueryIndexError
    | EditFailed(reason: ME.EditError)

  /** The text the exception carries: the status numeral and the reply
      of a failed request, the address that was not found, the answer
      that was not understood. */
  function Message(f: Failure): (r: string)
    ensures |r| > 0
    ensures f.ServiceError? ==>
              && PS.StartsWith(r, "Error ") && PS.StartsAt(r, N.Show(f.status), 6)
              && |f.body| <= |r| && r[|r| - |f.body|..] == f.body
    ensures f.AddressNotFound? ==>
              PS.StartsWith(r, "Address not found: ") && r[19..] == f.address
    ensures f.InvalidChoice? ==>
              PS.StartsWith(r, "Invalid choice: ") && r[16..] == f.answer
    ensures f.QueryIndexError? ==> r == "list index out of range"
    ensures f.EditFailed? && f.reason.UnsupportedOs? ==> r == "Unsupported OS"
  {
    match f
    case ServiceError(status, body) => "Error " + N.Show(status) + ": " + body
    case AddressNotFound(address) => "Address not found: " + address
    case InvalidChoice(answer) => "Invalid choice: " + answer
    case QueryIndexError => "list index out of range"
    case EditFailed(reason) =>
      // A session without a saved change raises nothing in the source (it
      // keeps polling); the text below is this model's own.
      if reason.UnsupportedOs? then "Unsupported OS" else "no change saved"
  }

  /** Different failures carry different texts, so the text names the
      failure and everything it carries. */
  lemma MessageInjective(f: Failure, g: Failure)
    requires Message(f) == Message(g)
    ensures f == g
  {
    MessageHeadIsFirst(f);
    MessageHeadIsFirst(g);
    if f.ServiceError? {
      ServiceErrorTextInjective(f.status, f.body, g.status, g.body);
    }
  }

  /** The first character of each kind of failure text. */
  function MessageHead(f: Failure): char {
    match f
    case ServiceError(_, _) => 'E'
    case AddressNotFound(_) => 'A'
    case InvalidChoice(_) => 'I'
    case QueryIndexError => 'l'
    case EditFailed(reason) => if reason.UnsupportedOs? then 'U' else 'n'
  }

  lemma MessageHeadIsFirst(f: Failure)
    ensures Message(f)[0] == MessageHead(f)
  {
  }

  /** The status numeral ends at the first non-digit, so a failed request's
      text gives back both its status and its reply. */
  lemma ServiceErrorTextInjective(s1: nat, b1: string, s2: nat, b2: string)
    requires "Error " + N.Show(s1) + ": " + b1 == "Error " + N.Show(s2) + ": " + b2
    ensures s1 == s2 && b1 == b2
  {
    var a, b := N.Show(s1), N.Show(s2);
    var x, y := a + (": " + b1), b + (": " + b2);
    Regroup("Error ", a, ": ", b1);
    Regroup("Error ", b, ": ", b2);
    assert x == y by {
      DropPrefix("Error ", x, y);
    }
    N.LeadingDigitsOfNumeral(a, ": " + b1);
    N.LeadingDigitsOfNumeral(b, ": " + b2);
    assert a == x[..|a|] && b == y[..|b|];
    N.ShowInjective(s1, s2);
    assert b1 == x[|a| + 2..] && b2 == y[|b| + 2..];
  }

  lemma Regroup(p: string, a: string, q: string, b: string)
    ensures p + a + q + b == p + (a + (q + b))
  {
  }

  lemma DropPrefix(p: string, u: string, v: string)
    requires p + u == p + v
    ensures u == v
  {
    assert u == (p + u)[|p|..];
    assert v == (p + v)[|p|..];
  }

  predicate KeyIsValid(key: Option<string>) {
    key.Some? && |key.value| >= MinKeyLength
  }

  /** The operator's "y"/"Y" test `x.lower() == "y"`. */
  predicate IsYes(x: string) {
    C.Lower(x) == "y"
  }

  // ---------------------------------------------------------------------
  // Query

  /** `lines[1:-1]`. */
  function Middle(lines: seq<string>): seq<string> {
    if |lines| >= 2 then lines[1..|lines| - 1] else []
  }

  /** The query lines: the lines of `q` without the first and the last,
      joined and split again, with the final one cut at its first space.
      There is no final line to cut when `q` has fewer than three lines. */
  function PrepareQuery(q: string): (r: Result<seq<string>, Failure>)
    ensures r.Err? ==> r.error == QueryIndexError
    ensures r.Ok? ==> |SplitLines(q)| >= 3
    ensures r.Ok? ==> |r.value| > 0 && ' ' !in r.value[|r.value| - 1]
  {
    var mids := SplitLines(JoinLines(Middle(SplitLines(q))));
    if |mids| == 0 then Err(QueryIndexError)
    else Ok(mids[..|mids| - 1] + [PS.BeforeFirstSpace(mids[|mids| - 1])])
  }

  /** When the line before the last is not empty, the query is exactly the
      middle lines of `q` with the last of them cut at its first space. */
  lemma QueryFromMiddleLines(q: string)
    requires var lines := SplitLines(q); |lines| >= 3 && lines[|lines| - 2] != ""
    ensures var lines := SplitLines(q);
            PrepareQuery(q) == Ok(lines[1..|lines| - 2] + [PS.BeforeFirstSpace(lines[|lines| - 2])])
  {
    var lines := SplitLines(q);
    var n := |lines|;
    var middle := lines[1..n - 1];
    assert Middle(lines) == middle;
    MiddleSurvivesJoin(q);
    PrepareQueryOf(q, middle);
    var m := |middle|;
    assert m == n - 2;
    assert middle[m - 1] == lines[n - 2];
    assert middle[..m - 1] == lines[1..n - 2];
  }

  /** The query, in terms of the re-split middle lines `mids`. */
  lemma PrepareQueryOf(q: string, mids: seq<string>)
    requires mids == SplitLines(JoinLines(Middle(SplitLines(q)))) && |mids| > 0
    ensures PrepareQuery(q) == Ok(mids[..|mids| - 1] + [PS.BeforeFirstSpace(mids[|mids| - 1])])
  {
  }

  /** Joining the middle lines of a text and splitting them again gives
      them back, when the last of them is not empty. */
  lemma MiddleSurvivesJoin(q: string)
    requires |SplitLines(q)| >= 3 && SplitLines(q)[|SplitLines(q)| - 2] != ""
    ensures SplitLines(JoinLines(Middle(SplitLines(q)))) == Middle(SplitLines(q))
  {
    var lines := SplitLines(q);
    SplitLinesHaveNoBreaks(q);
    var middle := lines[1..|lines| - 1];
    forall k | 0 <= k < |middle| ensures NoBreaks(middle[k]) {
      assert middle[k] in lines;
    }
    SplitJoin(middle);
  }

  /** A text of fewer than three lines has no query. */
  lemma ShortTextHasNoQuery(q: string)
    requires |SplitLines(q)| < 3
    ensures PrepareQuery(q) == Err(QueryIndexError)
  {
  }

  // ---------------------------------------------------------------------
  // Choosing among the hits

  datatype Selection = Pick(index: nat) | ManualEntry | Invalid

  /** The answer to the numbered list of `n` hits: a digit string naming
      1..n picks that hit, the exact numeral of `n + 1` asks for manual
      entry, and anything else is invalid. */
  function ParseSelection(x: string, n: nat): (s: Selection)
    ensures s.Pick? ==> s.index < n
    ensures s.Pick? ==> N.IsDigitString(x) && N.Value(x) == s.index + 1
    ensures s.ManualEntry? ==> x == N.Show(n + 1)
    ensures N.IsDigitString(x) && 1 <= N.Value(x) <= n ==> s == Pick(N.Value(x) - 1)
    ensures N.IsDigitString(x) && N.Value(x) == n + 1 && x != N.Show(n + 1) ==> s == Invalid
  {
    if N.IsDigitString(x) && 1 <= N.Value(x) <= n then Pick(N.Value(x) - 1)
    else if x == N.Show(n + 1) then ManualEntry
    else Invalid
  }

  /** Typing the number `k` of a listed hit picks hit `k - 1`. */
  lemma SelectByNumber(k: nat, n: nat)
    requires 1 <= k <= n
    ensures ParseSelection(N.Show(k), n) == Pick(k - 1)
  {
    N.ValueOfShow(k);
  }

  /** Typing the number after the last hit asks for manual entry. */
  lemma SelectManualEntry(n: nat)
    ensures ParseSelection(N.Show(n + 1), n) == ManualEntry
  {
    N.ValueOfShow(n + 1);
  }

  /** An answer that is not a digit string, or whose number is 0 or beyond
      the manual option, is invalid. */
  lemma InvalidSelections(x: string, n: nat)
    requires !N.IsDigitString(x) || N.Value(x) == 0 || N.Value(x) > n + 1
    ensures ParseSelection(x, n) == Invalid
  {
    N.ValueOfShow(n + 1);
  }

  /** A leading zero is accepted for a hit ("01") but not for the manual
      option ("0" followed by the numeral of `n + 1`). */
  lemma LeadingZeroSelections(k: nat, n: nat)
    requires 1 <= k <= n
    ensures ParseSelection("0" + N.Show(k), n) == Pick(k - 1)
    ensures ParseSelection("0" + N.Show(n + 1), n) == Invalid
  {
    N.ValueOfShow(k);
    N.ValueOfShow(n + 1);
    N.LeadingZero(N.Show(k));
    N.LeadingZero(N.Show(n + 1));
    var z := "0" + N.Show(n + 1);
    assert |z| > 1 && z[0] == '0';
    assert z != N.Show(n + 1) by {
      if |N.Show(n + 1)| > 1 {
        assert N.Show(n + 1)[0] != '0';
      } else {
        assert |z| != |N.Show(n + 1)|;
      }
    }
  }

  /** How the routine goes on after the list lookup: with the code of a
      chosen hit, or with what the operator typed by hand. */
  datatype Route = Auto(code: string) | Manual(items: seq<ME.Payload>)

  /** `manual = [manual_edit()]`. */
  function ManualEntryRoute(op: Operator, host: ME.Machine): (r: Result<Route, Failure>)
    ensures r.Ok? ==> r.value.Manual? && |r.value.items| == 1 && r.value.items[0].Text?
  {
    match ME.Edit(ME.Text(""), host, op.entrySnapshots)
    case Err(e) => Err(EditFailed(e))
    case Ok(p) => Ok(Manual([p]))
  }

  function ChooseRoute(results: seq<Suggestion>, op: Operator, host: ME.Machine): (r: Result<Route, Failure>)
    requires |results| > 0
    ensures r.Ok? && r.value.Auto? ==> exists k :: 0 <= k < |results| && r.value.code == results[k].code
  {
    if |results| > 1 then
      match ParseSelection(op.choice, |results|)
      case Pick(k) => Ok(Auto(results[k].code))
      case ManualEntry => ManualEntryRoute(op, host)
      case Invalid => Err(InvalidChoice(op.choice))
    else if IsYes(op.confirm) then Ok(Auto(results[0].code))
    else ManualEntryRoute(op, host)
  }

  // ---------------------------------------------------------------------
  // Finishing

  /** The lieu-dit heuristic: a record without lieu-dit, for a query of
      more than two lines, takes the first query line as lieu-dit and
      gets it, upper-cased, in front of its address block. */
  function ApplyLieuDit(rec: AddressRecord, wq: seq<string>): (r: AddressRecord)
    ensures rec.lieuDit != "" || |wq| <= LieuDitQueryLines ==> r == rec
    ensures rec.lieuDit == "" && |wq| > LieuDitQueryLines ==>
              && r.lieuDit == wq[0]
              && |r.blocAdresse| == |rec.blocAdresse| + 1
              && r.blocAdresse[0] == C.Upper(wq[0])
              && r.blocAdresse[1..] == rec.blocAdresse
  {
    if rec.lieuDit == "" && |wq| > LieuDitQueryLines then
      AddressRecord(wq[0], [C.Upper(wq[0])] + rec.blocAdresse)
    else rec
  }

  /** The finished address: the title-cased first line of the input, then
      the address lines, joined by "\n". Read back line by line it gives
      exactly those lines when none of them holds a line break and the
      text does not end in an empty line. */
  function Finalise(first: string, block: seq<string>): (r: string)
    ensures PS.StartsWith(r, C.Title(first))
    ensures NoBreaks(first) && (forall k :: 0 <= k < |block| ==> NoBreaks(block[k]))
            && (if |block| == 0 then first != "" else block[|block| - 1] != "")
            ==> SplitLines(r) == [C.Title(first)] + block
  {
    var lines := [C.Title(first)] + block;
    JoinStartsWithFirst(lines);
    FinaliseRoundTrip(first, block);
    JoinLines(lines)
  }

  lemma JoinStartsWithFirst(lines: seq<string>)
    requires |lines| > 0
    ensures PS.StartsWith(JoinLines(lines), lines[0])
  {
    if |lines| > 1 {
      assert JoinLines(lines) == lines[0] + ("\n" + JoinLines(lines[1..]));
    }
  }

  lemma FinaliseRoundTrip(first: string, block: seq<string>)
    ensures NoBreaks(first) && (forall k :: 0 <= k < |block| ==> NoBreaks(block[k]))
            && (if |block| == 0 then first != "" else block[|block| - 1] != "")
            ==> SplitLines(JoinLines([C.Title(first)] + block)) == [C.Title(first)] + block
  {
    var lines := [C.Title(first)] + block;
    if NoBreaks(first) && (forall k :: 0 <= k < |block| ==> NoBreaks(block[k]))
       && (if |block| == 0 then first != "" else block[|block| - 1] != "") {
      TitleNoBreaks(first);
      assert forall k :: 1 <= k < |lines| ==> lines[k] == block[k - 1];
      SplitJoin(lines);
    }
  }

  /** Title-casing adds no line break (breaks are uncased) and keeps a
      non-empty line non-empty. */
  lemma TitleNoBreaks(s: string)
    requires NoBreaks(s)
    ensures NoBreaks(C.Title(s)) && |C.Title(s)| == |s|
  {
    forall k | 0 <= k < |s| ensures !IsLineBreak(C.Title(s)[k]) {
      C.TitleAt(s, false, k);
    }
  }

  /** `flat_manual`: list items are spliced in, strings appended. */
  function Flatten(items: seq<ME.Payload>): (r: seq<string>)
    ensures (forall k :: 0 <= k < |items| ==> items[k].Text?) ==>
              |r| == |items| && forall k :: 0 <= k < |items| ==> r[k] == items[k].text
  {
    if |items| == 0 then []
    else
      var head := match items[0] case Text(t) => [t] case LineList(ls) => ls;
      assert forall k :: 1 <= k < |items| ==> items[k] == items[1..][k - 1];
      head + Flatten(items[1..])
  }

  /** Flattening keeps the order of the items. */
  lemma {:induction false} FlattenAppend(a: seq<ME.Payload>, b: seq<ME.Payload>)
    ensures Flatten(a + b) == Flatten(a) + Flatten(b)
  {
    if |a| > 0 {
      assert (a + b)[0] == a[0];
      assert (a + b)[1..] == a[1..] + b;
      FlattenAppend(a[1..], b);
    } else {
      assert a + b == b;
    }
  }

  /** The detail lookup by `code` and what follows it. */
  function FinishAuto(first: string, wq: seq<string>, code: string, services: Services,
                      op: Operator): (r: Result<string, Failure>)
    ensures services.detailLookup(code).status != HttpOk ==>
              r == Err(ServiceError(services.detailLookup(code).status, services.detailLookup(code).text))
    ensures r.Err? ==> r.error.ServiceError? || r.error.EditFailed?
    ensures r.Ok? ==> PS.StartsWith(r.value, C.Title(first))
  {
    var resp := services.detailLookup(code);
    if resp.status != HttpOk then Err(ServiceError(resp.status, resp.text))
    else
      var rec := ApplyLieuDit(resp.record, wq);
      if rec.lieuDit != "" && !IsYes(op.keep) then
        match ME.Edit(ME.LineList(rec.blocAdresse), services.host, op.blockSnapshots)
        case Err(e) => Err(EditFailed(e))
        case Ok(p) => Ok(Finalise(first, p.lines))
      else Ok(Finalise(first, rec.blocAdresse))
  }

  // ---------------------------------------------------------------------
  // The routine

  /** Everything after the list lookup answered `resp` to the query `wq`
      of the text `q`, whose first line is `first`. */
  function AfterListLookup(q: string, first: string, wq: seq<string>, resp: ListResponse,
                           services: Services, op: Operator): (r: Result<string, Failure>)
    ensures resp.status != HttpOk ==> r == Err(ServiceError(resp.status, resp.text))
    ensures r == Err(AddressNotFound(q)) <==> resp.status == HttpOk && |resp.results| == 0
    ensures r.Err? && r.error.AddressNotFound? ==> r.error.address == q
    ensures r.Err? && r.error.InvalidChoice? <==>
              resp.status == HttpOk && |resp.results| > 1 && ParseSelection(op.choice, |resp.results|).Invalid?
    ensures r != Err(QueryIndexError)
    ensures r.Ok? ==> PS.StartsWith(r.value, C.Title(first))
  {
    if resp.status != HttpOk then Err(ServiceError(resp.status, resp.text))
    else if |resp.results| == 0 then Err(AddressNotFound(q))
    else
      match ChooseRoute(resp.results, op, services.host)
      case Err(e) => Err(e)
      case Ok(Auto(code)) => FinishAuto(first, wq, code, services, op)
      case Ok(Manual(items)) => Ok(Finalise(first, Flatten(items)))
  }

  /** `check_address(q)`. */
  function CheckAddress(q: string, services: Services, op: Operator): (r: Result<string, Failure>)
    ensures !KeyIsValid(services.apiKey) ==> r == Ok(q)
    ensures r == Err(QueryIndexError) <==> KeyIsValid(services.apiKey) && PrepareQuery(q).Err?
    ensures KeyIsValid(services.apiKey) && PrepareQuery(q).Ok?
            && services.listLookup(PrepareQuery(q).value).status != HttpOk ==>
              var resp := services.listLookup(PrepareQuery(q).value);
              r == Err(ServiceError(resp.status, resp.text))
    ensures r.Err? && r.error.AddressNotFound? <==>
              && KeyIsValid(services.apiKey) && PrepareQuery(q).Ok?
              && services.listLookup(PrepareQuery(q).value).status == HttpOk
              && |services.listLookup(PrepareQuery(q).value).results| == 0
    ensures r.Err? && r.error.InvalidChoice? <==>
              && KeyIsValid(services.apiKey) && PrepareQuery(q).Ok?
              && var resp := services.listLookup(PrepareQuery(q).value);
                 resp.status == HttpOk && |resp.results| > 1
                 && ParseSelection(op.choice, |resp.results|).Invalid?
    ensures KeyIsValid(services.apiKey) && r.Ok? ==>
              |SplitLines(q)| >= 3 && PS.StartsWith(r.value, C.Title(SplitLines(q)[0]))
  {
    if !KeyIsValid(services.apiKey) then Ok(q)
    else
      match PrepareQuery(q)
      case Err(e) => Err(e)
      case Ok(wq) => AfterListLookup(q, SplitLines(q)[0], wq, services.listLookup(wq), services, op)
  }

  /** The precondition of the lemmas below: the key is valid, `wq` is the
      query of `q`, and the list lookup answered it with `hits`. */
  predicate ListedHits(q: string, services: Services, wq: seq<string>, hits: seq<Suggestion>) {
    && KeyIsValid(services.apiKey)
    && PrepareQuery(q) == Ok(wq)
    && services.listLookup(wq).status == HttpOk
    && services.listLookup(wq).results == hits
  }

  /** Among several hits, typing `k` sends the code of hit `k - 1` to the
      detail lookup. */
  lemma PickedHitIsLookedUp(q: string, services: Services, op: Operator,
                            wq: seq<string>, hits: seq<Suggestion>, k: nat)
    requires ListedHits(q, services, wq, hits)
    requires |hits| > 1 && 1 <= k <= |hits| && op.choice == N.Show(k)
    ensures CheckAddress(q, services, op) == FinishAuto(SplitLines(q)[0], wq, hits[k - 1].code, services, op)
  {
    SelectByNumber(k, |hits|);
    assert ChooseRoute(hits, op, services.host) == Ok(Auto(hits[k - 1].code));
    assert CheckAddress(q, services, op)
           == AfterListLookup(q, SplitLines(q)[0], wq, services.listLookup(wq), services, op);
  }

  /** Among several hits, typing the number after the last one opens the
      editor on an empty text, and its result follows the first line. */
  lemma ManualOptionUsesEditor(q: string, services: Services, op: Operator,
                               wq: seq<string>, hits: seq<Suggestion>)
    requires ListedHits(q, services, wq, hits)
    requires |hits| > 1 && op.choice == N.Show(|hits| + 1)
    ensures CheckAddress(q, services, op)
            == match ME.Edit(ME.Text(""), services.host, op.entrySnapshots)
               case Err(e) => Err(EditFailed(e))
               case Ok(p) => Ok(Finalise(SplitLines(q)[0], [p.text]))
  {
    SelectManualEntry(|hits|);
    EntryIsOneLine(op, services.host);
  }

  /** With a single hit, any answer but "y"/"Y" goes to manual entry and
      the detail lookup is never consulted. */
  lemma DeclinedHitSkipsDetail(q: string, services: Services, other: string -> DetailResponse,
                               op: Operator, wq: seq<string>, hits: seq<Suggestion>)
    requires ListedHits(q, services, wq, hits) && |hits| == 1
    requires op.confirm != "y" && op.confirm != "Y"
    ensures CheckAddress(q, services, op) == CheckAddress(q, services.(detailLookup := other), op)
    ensures CheckAddress(q, services, op)
            == match ME.Edit(ME.Text(""), services.host, op.entrySnapshots)
               case Err(e) => Err(EditFailed(e))
               case Ok(p) => Ok(Finalise(SplitLines(q)[0], [p.text]))
  {
    C.LowerIsY(op.confirm);
    EntryIsOneLine(op, services.host);
  }

  /** A single hit confirmed with "y" or "Y" sends its code to the detail
      lookup. */
  lemma ConfirmedHitIsLookedUp(q: string, services: Services, op: Operator,
                               wq: seq<string>, hits: seq<Suggestion>)
    requires ListedHits(q, services, wq, hits) && |hits| == 1 && IsYes(op.confirm)
    ensures CheckAddress(q, services, op) == FinishAuto(SplitLines(q)[0], wq, hits[0].code, services, op)
  {
    assert ChooseRoute(hits, op, services.host) == Ok(Auto(hits[0].code));
    assert CheckAddress(q, services, op)
           == AfterListLookup(q, SplitLines(q)[0], wq, services.listLookup(wq), services, op);
  }

  /** A record whose lieu-dit the operator keeps, or a record without
      lieu-dit for a query of at most two lines, is finished as the
      title-cased first line followed by the record's address block. */
  lemma KeptRecordIsFinalised(first: string, wq: seq<string>, code: string, services: Services,
                              op: Operator)
    requires services.detailLookup(code).status == HttpOk
    requires var rec := services.detailLookup(code).record;
             (rec.lieuDit != "" && IsYes(op.keep)) || (rec.lieuDit == "" && |wq| <= LieuDitQueryLines)
    ensures FinishAuto(first, wq, code, services, op)
            == Ok(JoinLines([C.Title(first)] + services.detailLookup(code).record.blocAdresse))
  {
  }

  /** The manual entry route flattens to the single text the editor gave back. */
  lemma EntryIsOneLine(op: Operator, host: ME.Machine)
    ensures var r := ME.Edit(ME.Text(""), host, op.entrySnapshots);
            r.Ok? ==> r.value.Text? && Flatten([r.value]) == [r.value.text]
  {
    var r := ME.Edit(ME.Text(""), host, op.entrySnapshots);
    if r.Ok? {
      assert Flatten([r.value]) == [r.value.text] + Flatten([]);
    }
  }

  /** A detail record without lieu-dit, for a query of more than two
      lines, comes out with the upper-cased first query line right after
      the title-cased first line of the input, once the operator keeps
      it. */
  lemma SynthesisedLieuDitLeadsBlock(first: string, wq: seq<string>, code: string,
                                     services: Services, op: Operator)
    requires services.detailLookup(code).status == HttpOk
    requires services.detailLookup(code).record.lieuDit == ""
    requires |wq| > LieuDitQueryLines
    requires op.keep == "y" || op.keep == "Y" || wq[0] == ""
    ensures var bloc := services.detailLookup(code).record.blocAdresse;
            FinishAuto(first, wq, code, services, op)
            == Ok(JoinLines([C.Title(first), C.Upper(wq[0])] + bloc))
  {
    C.LowerIsY(op.keep);
    var bloc := services.detailLookup(code).record.blocAdresse;
    assert [C.Title(first)] + ([C.Upper(wq[0])] + bloc) == [C.Title(first), C.Upper(wq[0])] + bloc;
  }

  /** A non-empty lieu-dit, from the detail record or synthesised from the
      query, that the operator does not keep sends the address block
      (with the synthesised line, if any) through the editor as a list of
      lines. */
  lemma RejectedLieuDitIsEdited(first: string, wq: seq<string>, code: string,
                                services: Services, op: Operator)
    requires services.detailLookup(code).status == HttpOk
    requires ApplyLieuDit(services.detailLookup(code).record, wq).lieuDit != ""
    requires op.keep != "y" && op.keep != "Y"
    ensures var bloc := ApplyLieuDit(services.detailLookup(code).record, wq).blocAdresse;
            FinishAuto(first, wq, code, services, op)
            == match ME.Edit(ME.LineList(bloc), services.host, op.blockSnapshots)
               case Err(e) => Err(EditFailed(e))
               case Ok(p) => Ok(Finalise(first, p.lines))
  {
    C.LowerIsY(op.keep);
  }

}

=== FILE: creator.dfy ===
/** The geometry of `create_window_page`: where the text of a letter is
    placed on an A4 page so that it shows through the window of a DL
    envelope, and the light border drawn around it on request. Drawing,
    fonts and the PDF file are not modelled; the page is the list of
    strings drawn and the rectangle stroked. */
module Creator {
  import opened Results
  import opened Lines

  /** Points per millimetre. */
  const MmToPt: real := 2.83465
  /** The A4 page, in millimetres. */
  const PageWidthMm: int := 210
  const PageHeightMm: int := 297
  /** Distance in points between two baselines. */
  const LineHeight: int := 14

  /** The window settings of the configuration, in millimetres.
      `height` is part of the settings but plays no part in the page. */
  datatype Display = Display(marginTop: int, marginRight: int, width: int, height: int)

  /** `drawString(x, y, text)`. */
  datatype DrawnLine = DrawnLine(x: real, y: real, text: string)

  /** `rect(x, y, w, h)`: lower-left corner, width and height. */
  datatype Rect = Rect(x: real, y: real, w: real, h: real)

  datatype WindowPage = WindowPage(strings: seq<DrawnLine>, border: Option<Rect>)

  /** The window's left edge, in millimetres from the left of the page. */
  function WindowLeftMm(d: Display): (r: int)
    ensures r + d.width + d.marginRight == PageWidthMm
  {
    PageWidthMm - d.marginRight - d.width
  }

  /** The window's top, in millimetres from the bottom of the page. */
  function WindowTopMm(d: Display): (r: int)
    ensures r + d.marginTop == PageHeightMm
  {
    PageHeightMm - d.marginTop
  }

  function ToPt(mm: int): real {
    mm as real * MmToPt
  }

  /** The baseline of line `i`: `i` line heights below the window's top. */
  function Baseline(d: Display, i: nat): real {
    ToPt(WindowTopMm(d)) - (i * LineHeight) as real
  }

  /** The page for `text`: one string per line of the text, all starting
      at the window's left edge, the first on the window's top and each
      next one a line height lower; with the border on, a rectangle as
      wide as the window and as tall as the lines, hanging from the top. */
  function CreateWindowPage(text: string, d: Display, showBorder: bool): (p: WindowPage)
    ensures |p.strings| == |SplitLines(text)|
    ensures forall i :: 0 <= i < |p.strings| ==>
              p.strings[i] == DrawnLine(ToPt(WindowLeftMm(d)), Baseline(d, i), SplitLines(text)[i])
    ensures p.border.None? <==> !showBorder
    ensures p.border.Some? ==>
              && p.border.value.x == ToPt(WindowLeftMm(d))
              && p.border.value.w == d.width as real * MmToPt
              && p.border.value.h == (LineHeight * |SplitLines(text)|) as real
              && p.border.value.y + p.border.value.h == ToPt(WindowTopMm(d))
  {
    var lines := SplitLines(text);
    var strings := seq(|lines|, i requires 0 <= i < |lines| =>
                         DrawnLine(ToPt(WindowLeftMm(d)), Baseline(d, i), lines[i]));
    if showBorder then
      var h := (|lines| * LineHeight) as real;
      WindowPage(strings, Some(Rect(ToPt(WindowLeftMm(d)), ToPt(WindowTopMm(d)) - h,
                                    ToPt(d.width), h)))
    else WindowPage(strings, None)
  }

  /** The drawing loop: line `i` of the text is drawn at the window's left
      edge, `i` line heights below its top. */
  method DrawLines(text: string, d: Display) returns (drawn: seq<DrawnLine>)
    ensures drawn == CreateWindowPage(text, d, false).strings
  {
    var lines := SplitLines(text);
    var x0 := ToPt(WindowLeftMm(d));
    var yTop := ToPt(WindowTopMm(d));
    drawn := [];
    var i := 0;
    while i < |lines|
      invariant 0 <= i <= |lines|
      invariant |drawn| == i
      invariant forall k :: 0 <= k < i ==> drawn[k] == DrawnLine(x0, Baseline(d, k), lines[k])
    {
      drawn := drawn + [DrawnLine(x0, yTop - (i * LineHeight) as real, lines[i])];
      i := i + 1;
    }
  }

  /** Consecutive lines are exactly one line height apart, on the same
      left edge. */
  lemma LinesDescend(text: string, d: Display, showBorder: bool, i: nat)
    requires i + 1 < |SplitLines(text)|
    ensures var p := CreateWindowPage(text, d, showBorder);
            p.strings[i].y - p.strings[i + 1].y == LineHeight as real
            && p.strings[i].x == p.strings[i + 1].x
  {
  }

  /** The border's right edge is the right margin away from the page's
      right edge, and its top is the top margin below the page's top. */
  lemma BorderSitsInMargins(text: string, d: Display)
    ensures var r := CreateWindowPage(text, d, true).border.value;
            && r.x + r.w == (PageWidthMm - d.marginRight) as real * MmToPt
            && r.y + r.h == (PageHeightMm - d.marginTop) as real * MmToPt
  {
  }

  /** The border's bottom lies one line height below the last baseline. */
  lemma LastLineRestsOnBorder(text: string, d: Display)
    requires |SplitLines(text)| > 0
    ensures var p := CreateWindowPage(text, d, true);
            p.strings[|p.strings| - 1].y - LineHeight as real == p.border.value.y
  {
  }

  /** The settings of an empty text still place the (empty) border on the
      window's top. */
  lemma EmptyTextDrawsNothing(d: Display)
    ensures var p := CreateWindowPage("", d, true);
            p.strings == [] && p.border == Some(Rect(ToPt(WindowLeftMm(d)), ToPt(WindowTopMm(d)),
                                                     ToPt(d.width), 0.0))
  {
  }
}

=== FILE: extractor.dfy ===
/** Positional block extraction: `extract_text_custom` over a laid-out PDF.
    The PDF layout pass is an input: a sequence of pages, each either the
    layout elements the pass produced or the message of the exception it
    raised while reading that page. */
module Extractor {
  import opened Results
  import opened Lines
  import S = PyStrings

  /** The three strategies of `ExtractionType`. */
  datatype ExtractionType = Contains | Following | Preceding

  /** One element of a page layout; only text boxes carry text, and each
      holds its text lines as the layout pass returned them. */
  datatype LayoutElement = TextBox(lines: seq<string>) | OtherElement

  datatype PageRead = Page(elements: seq<LayoutElement>) | Unreadable(message: string)

  /** The message of the `IndexError` a list subscript out of range raises. */
  const IndexErrorMessage: string := "list index out of range"

  // ---------------------------------------------------------------------
  // Box texts

  /** The lines of `xs` that are not empty, in order. */
  function NonEmpty(xs: seq<string>): (r: seq<string>)
    ensures |r| <= |xs|
    ensures forall k :: 0 <= k < |r| ==> r[k] != ""
    ensures r == [] <==> forall k :: 0 <= k < |xs| ==> xs[k] == ""
  {
    if |xs| == 0 then []
    else
      var rest := NonEmpty(xs[1..]);
      assert forall k :: 1 <= k < |xs| ==> xs[k] == xs[1..][k - 1];
      if xs[0] != "" then [xs[0]] + rest else rest
  }

  /** One line more at the end is kept exactly when it is not empty. */
  lemma {:induction false} NonEmptySnoc(xs: seq<string>, x: string)
    ensures NonEmpty(xs + [x]) == NonEmpty(xs) + (if x != "" then [x] else [])
  {
    if |xs| > 0 {
      assert (xs + [x])[1..] == xs[1..] + [x];
      NonEmptySnoc(xs[1..], x);
    }
  }

  /** Each line of a box with its surrounding whitespace removed. */
  function Stripped(lines: seq<string>): (r: seq<string>)
    ensures |r| == |lines| && forall k :: 0 <= k < |lines| ==> r[k] == S.Strip(lines[k])
  {
    seq(|lines|, k requires 0 <= k < |lines| => S.Strip(lines[k]))
  }

  /** The stripped lines of a box that are not empty, in order. */
  function KeptLines(lines: seq<string>): (r: seq<string>)
    ensures |r| <= |lines|
    ensures forall k :: 0 <= k < |r| ==> r[k] != ""
    ensures r == [] <==> forall k :: 0 <= k < |lines| ==> S.Strip(lines[k]) == ""
  {
    NonEmpty(Stripped(lines))
  }

  /** The text of one box: its kept lines joined by "\n". A box with no
      non-empty line gives "", and reading the text back line by line gives
      exactly the kept lines whenever no stripped line holds a line break. */
  function BoxText(lines: seq<string>): (r: string)
    ensures r == "" <==> forall k :: 0 <= k < |lines| ==> S.Strip(lines[k]) == ""
    ensures (forall k :: 0 <= k < |lines| ==> NoBreaks(S.Strip(lines[k])))
            ==> SplitLines(r) == KeptLines(lines)
  {
    var kept := KeptLines(lines);
    JoinNonEmpty(kept);
    KeptLinesRoundTrip(lines);
    JoinLines(kept)
  }

  lemma KeptLinesRoundTrip(lines: seq<string>)
    ensures (forall k :: 0 <= k < |lines| ==> NoBreaks(S.Strip(lines[k])))
            ==> SplitLines(JoinLines(KeptLines(lines))) == KeptLines(lines)
  {
    if forall k :: 0 <= k < |lines| ==> NoBreaks(S.Strip(lines[k])) {
      KeptLinesNoBreaks(lines);
      SplitJoin(KeptLines(lines));
    }
  }

  lemma KeptLinesNoBreaks(lines: seq<string>)
    requires forall k :: 0 <= k < |lines| ==> NoBreaks(S.Strip(lines[k]))
    ensures forall k :: 0 <= k < |KeptLines(lines)| ==> NoBreaks(KeptLines(lines)[k])
  {
    NonEmptyNoBreaks(Stripped(lines));
  }

  lemma {:induction false} NonEmptyNoBreaks(xs: seq<string>)
    requires forall k :: 0 <= k < |xs| ==> NoBreaks(xs[k])
    ensures forall k :: 0 <= k < |NonEmpty(xs)| ==> NoBreaks(NonEmpty(xs)[k])
  {
    if |xs| > 0 {
      var tail := xs[1..];
      assert forall k :: 0 <= k < |tail| ==> tail[k] == xs[k + 1];
      NonEmptyNoBreaks(tail);
      var rest := NonEmpty(tail);
      if xs[0] != "" {
        assert NonEmpty(xs) == [xs[0]] + rest;
        assert forall k :: 0 < k < |rest| + 1 ==> ([xs[0]] + rest)[k] == rest[k - 1];
      }
    }
  }

  lemma {:induction false} JoinNonEmpty(ls: seq<string>)
    requires forall k :: 0 <= k < |ls| ==> ls[k] != ""
    ensures JoinLines(ls) == "" <==> ls == []
  {
    if |ls| > 1 {
      assert |JoinLines(ls)| >= |ls[0]| > 0;
    }
  }

  /** The text boxes of a page, in layout order; other elements are
      skipped. */
  function TextBoxes(elements: seq<LayoutElement>): (r: seq<seq<string>>)
    ensures |r| <= |elements|
    ensures forall k :: 0 <= k < |elements| && elements[k].TextBox? ==> elements[k].lines in r
    ensures forall b :: b in r ==> TextBox(b) in elements
  {
    if |elements| == 0 then []
    else
      var rest := TextBoxes(elements[1..]);
      assert forall k :: 1 <= k < |elements| ==> elements[k] == elements[1..][k - 1];
      match elements[0]
      case TextBox(lines) => [lines] + rest
      case OtherElement => rest
  }

  /** The text boxes of two runs of elements are those of the first run
      followed by those of the second: layout order is kept. */
  lemma {:induction false} TextBoxesAppend(a: seq<LayoutElement>, b: seq<LayoutElement>)
    ensures TextBoxes(a + b) == TextBoxes(a) + TextBoxes(b)
  {
    if |a| > 0 {
      var s := a + b;
      assert s[0] == a[0];
      assert s[1..] == a[1..] + b;
      TextBoxesAppend(a[1..], b);
      if a[0].TextBox? {
        assert TextBoxes(s) == [a[0].lines] + TextBoxes(s[1..]);
      } else {
        assert TextBoxes(s) == TextBoxes(s[1..]);
      }
    } else {
      assert a + b == b;
    }
  }

  /** One text per text box, so that a box's index in this list is its
      position among the page's text boxes. */
  function BoxTexts(elements: seq<LayoutElement>): seq<string> {
    var boxes := TextBoxes(elements);
    seq(|boxes|, k requires 0 <= k < |boxes| => BoxText(boxes[k]))
  }

  // ---------------------------------------------------------------------
  // Strategies

  /** `s[i]` on a Python list: a negative `i` counts from the end. */
  function PyIndex(s: seq<string>, i: int): (r: Result<string, string>)
    ensures r.Ok? <==> -|s| <= i < |s|
    ensures r.Ok? ==> r.value in s
    ensures r.Ok? && i >= 0 ==> r.value == s[i]
    ensures r.Ok? && i < 0 ==> r.value == s[|s| + i]
    ensures r.Err? ==> r.error == IndexErrorMessage
  {
    if 0 <= i < |s| then Ok(s[i])
    else if -|s| <= i < 0 then Ok(s[|s| + i])
    else Err(IndexErrorMessage)
  }

  /** What the box at `idx` adds to the page's result list. */
  function Contribution(texts: seq<string>, kind: ExtractionType, skip: int,
                        search: string, idx: nat): Result<seq<string>, string>
    requires idx < |texts|
  {
    if !S.Contains(texts[idx], search) then Ok([])
    else
      match kind
      case Contains => Ok([texts[idx]])
      case Following =>
        if idx + 1 + skip < |texts| then
          match PyIndex(texts, idx + 1 + skip)
          case Ok(t) => Ok([t])
          case Err(m) => Err(m)
        else Ok([])
      case Preceding =>
        if idx - 1 - skip >= 0 then
          match PyIndex(texts, idx - 1 - skip)
          case Ok(t) => Ok([t])
          case Err(m) => Err(m)
        else Ok([])
  }

  /** The result list after the loop has visited the first `n` boxes;
      the first failure ends the loop. */
  function PagePieces(texts: seq<string>, kind: ExtractionType, skip: int,
                      search: string, n: nat): Result<seq<string>, string>
    requires n <= |texts|
  {
    if n == 0 then Ok([])
    else
      match PagePieces(texts, kind, skip, search, n - 1)
      case Err(m) => Err(m)
      case Ok(acc) =>
        match Contribution(texts, kind, skip, search, n - 1)
        case Err(m) => Err(m)
        case Ok(c) => Ok(acc + c)
  }

  /** `"".join(pieces)`. */
  function Concat(pieces: seq<string>): string {
    if |pieces| == 0 then "" else pieces[0] + Concat(pieces[1..])
  }

  /** What one page writes to the output. */
  function PageOutput(elements: seq<LayoutElement>, kind: ExtractionType, skip: int,
                      search: string): Result<string, string>
  {
    var texts := BoxTexts(elements);
    match PagePieces(texts, kind, skip, search, |texts|)
    case Ok(pieces) => Ok(Concat(pieces))
    case Err(m) => Err(m)
  }

  /** What a page writes, or the failure reading it raised. */
  function PageResult(page: PageRead, kind: ExtractionType, skip: int,
                      search: string): Result<string, string>
  {
    match page
    case Unreadable(m) => Err(m)
    case Page(elements) => PageOutput(elements, kind, skip, search)
  }

  /** Output written so far followed by the next output; the first
      failure wins and nothing after it is looked at. */
  function Append(x: Result<string, string>, y: Result<string, string>): Result<string, string> {
    match x
    case Err(m) => Err(m)
    case Ok(a) =>
      match y
      case Err(m) => Err(m)
      case Ok(b) => Ok(a + b)
  }

  /** The output accumulated over the pages, or the first failure. */
  function ExtractPages(pdf: seq<PageRead>, kind: ExtractionType, skip: int,
                        search: string): Result<string, string>
  {
    if |pdf| == 0 then Ok("")
    else Append(ExtractPages(pdf[..|pdf| - 1], kind, skip, search),
                PageResult(pdf[|pdf| - 1], kind, skip, search))
  }

  /** The string `extract_text_custom` returns: the output, or
      "Error: " followed by the failure's message. */
  function ExtractText(pdf: seq<PageRead>, kind: ExtractionType, skip: int,
                       search: string): string
  {
    match ExtractPages(pdf, kind, skip, search)
    case Ok(out) => out
    case Err(m) => "Error: " + m
  }

  // ---------------------------------------------------------------------
  // The loop of the source

  /** `extract_text_custom`, loop for loop: it returns what the functional
      model above describes. */
  method ExtractTextCustom(pdf: seq<PageRead>, kind: ExtractionType, skip: int,
                           search: string) returns (r: string)
    ensures r == ExtractText(pdf, kind, skip, search)
  {
    var output := "";
    var p := 0;
    while p < |pdf|
      invariant 0 <= p <= |pdf|
      invariant ExtractPages(pdf[..p], kind, skip, search) == Ok(output)
    {
      assert pdf[..p + 1][..p] == pdf[..p];
      match pdf[p]
      case Unreadable(m) =>
        ErrorSticks(pdf, p + 1, kind, skip, search);
        return "Error: " + m;
      case Page(elements) =>
        var texts := BoxTexts(elements);
        var result := SelectPieces(texts, kind, skip, search);
        if result.Err? {
          ErrorSticks(pdf, p + 1, kind, skip, search);
          return "Error: " + result.error;
        }
        output := output + Concat(result.value);
        p := p + 1;
    }
    assert pdf[..p] == pdf;
    r := output;
  }

  /** The box loop of one page: the list of selected texts, or the failure
      of an out-of-range subscript. */
  method SelectPieces(texts: seq<string>, kind: ExtractionType, skip: int,
                      search: string) returns (r: Result<seq<string>, string>)
    ensures r == PagePieces(texts, kind, skip, search, |texts|)
  {
    var result: seq<string> := [];
    var idx := 0;
    while idx < |texts|
      invariant 0 <= idx <= |texts|
      invariant PagePieces(texts, kind, skip, search, idx) == Ok(result)
    {
      assert result + [] == result;
      if S.Contains(texts[idx], search) {
        match kind
        case Contains =>
          result := result + [texts[idx]];
        case Following =>
          if idx + 1 + skip < |texts| {
            var following := PyIndex(texts, idx + 1 + skip);
            if following.Err? {
              PiecesErrorSticks(texts, kind, skip, search, idx + 1, |texts|);
              return Err(following.error);
            }
            result := result + [following.value];
          }
        case Preceding =>
          if idx - 1 - skip >= 0 {
            var preceding := PyIndex(texts, idx - 1 - skip);
            if preceding.Err? {
              PiecesErrorSticks(texts, kind, skip, search, idx + 1, |texts|);
              return Err(preceding.error);
            }
            result := result + [preceding.value];
          }
      }
      idx := idx + 1;
    }
    r := Ok(result);
  }

  /** Once the box loop has failed, the page fails with the same message. */
  lemma {:induction false} PiecesErrorSticks(texts: seq<string>, kind: ExtractionType, skip: int,
                                             search: string, m: nat, n: nat)
    requires m <= n <= |texts|
    requires PagePieces(texts, kind, skip, search, m).Err?
    ensures PagePieces(texts, kind, skip, search, n) == PagePieces(texts, kind, skip, search, m)
    decreases n - m
  {
    if m < n {
      PiecesErrorSticks(texts, kind, skip, search, m, n - 1);
    }
  }

  /** Once a page has failed, the whole extraction fails with its message. */
  lemma ErrorSticks(pdf: seq<PageRead>, p: nat, kind: ExtractionType, skip: int, search: string)
    requires p <= |pdf|
    requires ExtractPages(pdf[..p], kind, skip, search).Err?
    ensures ExtractPages(pdf, kind, skip, search) == ExtractPages(pdf[..p], kind, skip, search)
  {
    PagesAppend(pdf[..p], pdf[p..], kind, skip, search);
    assert pdf[..p] + pdf[p..] == pdf;
  }

  // ---------------------------------------------------------------------
  // Page order

  lemma AppendAssociative(x: Result<string, string>, y: Result<string, string>, z: Result<string, string>)
    ensures Append(Append(x, y), z) == Append(x, Append(y, z))
  {
    if x.Ok? && y.Ok? && z.Ok? {
      assert (x.value + y.value) + z.value == x.value + (y.value + z.value);
    }
  }

  /** Extracting a concatenation of two documents writes the first one's
      output followed by the second one's; the first failure wins. */
  lemma {:induction false} PagesAppend(a: seq<PageRead>, b: seq<PageRead>, kind: ExtractionType,
                                       skip: int, search: string)
    ensures ExtractPages(a + b, kind, skip, search)
            == Append(ExtractPages(a, kind, skip, search), ExtractPages(b, kind, skip, search))
    decreases |b|
  {
    if |b| == 0 {
      assert a + b == a;
      var x := ExtractPages(a, kind, skip, search);
      if x.Ok? {
        assert x.value + "" == x.value;
      }
    } else {
      var b' := b[..|b| - 1];
      assert (a + b)[..|a + b| - 1] == a + b';
      assert (a + b)[|a + b| - 1] == b[|b| - 1];
      PagesAppend(a, b', kind, skip, search);
      AppendAssociative(ExtractPages(a, kind, skip, search), ExtractPages(b', kind, skip, search),
                        PageResult(b[|b| - 1], kind, skip, search));
    }
  }

  /** Output written for earlier pages is never altered by later ones:
      when a document extracts successfully, so does every run of its first
      pages, and that output is where the whole output starts. */
  lemma EarlierPagesKept(a: seq<PageRead>, b: seq<PageRead>, kind: ExtractionType, skip: int,
                         search: string)
    requires ExtractPages(a + b, kind, skip, search).Ok?
    ensures ExtractPages(a, kind, skip, search).Ok?
    ensures var prefix := ExtractPages(a, kind, skip, search).value;
            var whole := ExtractPages(a + b, kind, skip, search).value;
            |prefix| <= |whole| && whole[..|prefix|] == prefix
  {
    PagesAppend(a, b, kind, skip, search);
    AppendKeepsPrefix(ExtractPages(a, kind, skip, search), ExtractPages(b, kind, skip, search));
  }

  /** A successful `Append` starts with its first argument's output. */
  lemma AppendKeepsPrefix(x: Result<string, string>, y: Result<string, string>)
    requires Append(x, y).Ok?
    ensures x.Ok? && |x.value| <= |Append(x, y).value| && Append(x, y).value[..|x.value|] == x.value
  {
  }

  /** A document holding an unreadable page yields "Error: " and that page's
      message, when every page before it is readable and the skip is not
      negative. */
  lemma UnreadablePageIsReported(pdf: seq<PageRead>, i: nat, kind: ExtractionType, skip: int,
                                 search: string)
    requires skip >= 0
    requires i < |pdf| && pdf[i].Unreadable?
    requires forall j :: 0 <= j < i ==> pdf[j].Page?
    ensures ExtractText(pdf, kind, skip, search) == "Error: " + pdf[i].message
  {
    ReadablePagesSucceed(pdf[..i], kind, skip, search);
    assert pdf[..i + 1][..i] == pdf[..i];
    ErrorSticks(pdf, i + 1, kind, skip, search);
  }

  /** With a non-negative skip only an unreadable page can fail. */
  lemma {:induction false} ReadablePagesSucceed(pdf: seq<PageRead>, kind: ExtractionType, skip: int,
                                                search: string)
    requires skip >= 0
    requires forall j :: 0 <= j < |pdf| ==> pdf[j].Page?
    ensures ExtractPages(pdf, kind, skip, search).Ok?
  {
    if |pdf| > 0 {
      ReadablePagesSucceed(pdf[..|pdf| - 1], kind, skip, search);
      var texts := BoxTexts(pdf[|pdf| - 1].elements);
      NonNegativeSkipSucceeds(texts, kind, skip, search, |texts|);
    }
  }

  // ---------------------------------------------------------------------
  // What each strategy selects

  /** The values whose key (at the same position) contains `search`, in
      order: the reference the three strategies are measured against. */
  function SelectWhere(keys: seq<string>, vals: seq<string>, search: string): (r: seq<string>)
    requires |keys| == |vals|
    ensures |r| <= |keys|
  {
    if |keys| == 0 then []
    else
      var rest := SelectWhere(keys[1..], vals[1..], search);
      if S.Contains(keys[0], search) then [vals[0]] + rest else rest
  }

  /** The members of `SelectWhere`: exactly the values whose key matches. */
  lemma {:induction false} SelectWhereMembers(keys: seq<string>, vals: seq<string>, search: string)
    requires |keys| == |vals|
    ensures forall i :: 0 <= i < |keys| && S.Contains(keys[i], search) ==> vals[i] in SelectWhere(keys, vals, search)
    ensures forall x :: x in SelectWhere(keys, vals, search) ==>
              exists i :: 0 <= i < |keys| && S.Contains(keys[i], search) && vals[i] == x
  {
    if |keys| > 0 {
      SelectWhereMembers(keys[1..], vals[1..], search);
      assert forall i :: 1 <= i < |keys| ==> keys[i] == keys[1..][i - 1] && vals[i] == vals[1..][i - 1];
      var r := SelectWhere(keys, vals, search);
      forall x | x in r
        ensures exists i :: 0 <= i < |keys| && S.Contains(keys[i], search) && vals[i] == x
      {
        if !(S.Contains(keys[0], search) && x == vals[0]) {
          var j :| 0 <= j < |keys| - 1 && S.Contains(keys[1..][j], search) && vals[1..][j] == x;
          assert S.Contains(keys[j + 1], search) && vals[j + 1] == x;
        }
      }
    }
  }

  /** No matching key, no value. */
  lemma {:induction false} SelectWhereNoMatch(keys: seq<string>, vals: seq<string>, search: string)
    requires |keys| == |vals|
    requires forall i :: 0 <= i < |keys| ==> !S.Contains(keys[i], search)
    ensures SelectWhere(keys, vals, search) == []
  {
    if |keys| > 0 {
      assert forall i :: 0 <= i < |keys| - 1 ==> keys[1..][i] == keys[i + 1];
      SelectWhereNoMatch(keys[1..], vals[1..], search);
    }
  }

  /** One pair more at the end adds its value when its key matches. */
  lemma {:induction false} SelectWhereSnoc(keys: seq<string>, vals: seq<string>, search: string,
                                           k: string, v: string)
    requires |keys| == |vals|
    ensures SelectWhere(keys + [k], vals + [v], search)
            == SelectWhere(keys, vals, search) + (if S.Contains(k, search) then [v] else [])
  {
    if |keys| > 0 {
      assert (keys + [k])[1..] == keys[1..] + [k];
      assert (vals + [v])[1..] == vals[1..] + [v];
      SelectWhereSnoc(keys[1..], vals[1..], search, k, v);
    }
  }

  /** CONTAINS collects the text of every box that contains `search`, in
      order, and does not look at `skip`. */
  lemma {:induction false} ContainsSelectsMatches(texts: seq<string>, skip: int, search: string, n: nat)
    requires n <= |texts|
    ensures PagePieces(texts, Contains, skip, search, n) == Ok(SelectWhere(texts[..n], texts[..n], search))
  {
    if n > 0 {
      ContainsSelectsMatches(texts, skip, search, n - 1);
      assert texts[..n] == texts[..n - 1] + [texts[n - 1]];
      SelectWhereSnoc(texts[..n - 1], texts[..n - 1], search, texts[n - 1], texts[n - 1]);
    }
  }

  function Min(a: int, b: int): int { if a <= b then a else b }

  /** One step of FOLLOWING with a non-negative skip. */
  lemma FollowingStep(texts: seq<string>, skip: int, search: string, idx: nat)
    requires skip >= 0 && idx < |texts|
    ensures Contribution(texts, Following, skip, search, idx)
            == Ok(if S.Contains(texts[idx], search) && idx + 1 + skip < |texts|
                  then [texts[idx + 1 + skip]] else [])
  {
  }

  /** One step of PRECEDING with a non-negative skip. */
  lemma PrecedingStep(texts: seq<string>, skip: int, search: string, idx: nat)
    requires skip >= 0 && idx < |texts|
    ensures Contribution(texts, Preceding, skip, search, idx)
            == Ok(if S.Contains(texts[idx], search) && idx - 1 - skip >= 0
                  then [texts[idx - 1 - skip]] else [])
  {
  }

  /** The reference for FOLLOWING over the first `n` boxes: the box
      `1 + skip` places after each of them that contains `search`, as long
      as that box is on the page. */
  function FollowingRef(texts: seq<string>, skip: int, search: string, n: nat): seq<string>
    requires skip >= 0 && n <= |texts|
  {
    if 1 + skip <= |texts| then
      var len := Min(n, |texts| - 1 - skip);
      SelectWhere(texts[0..len], texts[1 + skip..1 + skip + len], search)
    else []
  }

  /** The reference for PRECEDING over the first `n` boxes: the box
      `1 + skip` places before each of them that contains `search`, as long
      as that box is on the page. */
  function PrecedingRef(texts: seq<string>, skip: int, search: string, n: nat): seq<string>
    requires skip >= 0 && n <= |texts|
  {
    if 1 + skip <= n then SelectWhere(texts[1 + skip..n], texts[0..n - 1 - skip], search) else []
  }

  /** The box loop after one box more: what it had, then what that box adds. */
  lemma PiecesStep(texts: seq<string>, kind: ExtractionType, skip: int, search: string, n: nat,
                   acc: seq<string>, c: seq<string>)
    requires 0 < n <= |texts|
    requires PagePieces(texts, kind, skip, search, n - 1) == Ok(acc)
    requires Contribution(texts, kind, skip, search, n - 1) == Ok(c)
    ensures PagePieces(texts, kind, skip, search, n) == Ok(acc + c)
  {
  }

  /** One box more for FOLLOWING, when the box it points to is on the page. */
  lemma FollowingExtendIn(texts: seq<string>, skip: int, search: string, n: nat, acc: seq<string>)
    requires skip >= 0 && 0 < n && n + skip < |texts|
    requires acc == FollowingRef(texts, skip, search, n - 1)
    ensures FollowingRef(texts, skip, search, n)
            == acc + (if S.Contains(texts[n - 1], search) then [texts[n + skip]] else [])
  {
    FollowingRefInRange(texts, skip, search, n - 1, n + skip);
    FollowingRefInRange(texts, skip, search, n, n + skip + 1);
    SelectWhereSlices(texts, search, 0, n - 1, n, 1 + skip, n + skip, n + skip + 1);
  }

  /** Filtering the boxes `[a, b]` paired with the boxes `[c, d]` adds the
      pair `(b, d)` to filtering `[a, b)` paired with `[c, d)`. The ends are
      passed both ways (`b` and `b1 == b + 1`) so that the slices here are
      written exactly as the caller writes them. */
  lemma SelectWhereSlices(texts: seq<string>, search: string, a: nat, b: nat, b1: nat, c: nat, d: nat, d1: nat)
    requires a <= b && b1 == b + 1 <= |texts|
    requires c <= d && d1 == d + 1 <= |texts| && b - a == d - c
    ensures SelectWhere(texts[a..b1], texts[c..d1], search)
            == SelectWhere(texts[a..b], texts[c..d], search)
               + (if S.Contains(texts[b], search) then [texts[d]] else [])
  {
    assert texts[a..b1] == texts[a..b] + [texts[b]];
    assert texts[c..d1] == texts[c..d] + [texts[d]];
    SelectWhereSnoc(texts[a..b], texts[c..d], search, texts[b], texts[d]);
  }

  /** While the box pointed to is on the page, FOLLOWING pairs the first
      `m` boxes with the `m` boxes starting `1 + skip` later (up to `end`). */
  lemma FollowingRefInRange(texts: seq<string>, skip: int, search: string, m: nat, end: nat)
    requires skip >= 0 && m + skip < |texts| && end == 1 + skip + m
    ensures FollowingRef(texts, skip, search, m) == SelectWhere(texts[0..m], texts[1 + skip..end], search)
  {
    assert Min(m, |texts| - 1 - skip) == m;
  }

  /** One box more for FOLLOWING, when the box it points to is off the page. */
  lemma FollowingExtendOut(texts: seq<string>, skip: int, search: string, n: nat)
    requires skip >= 0 && 0 < n <= |texts| && n + skip >= |texts|
    ensures FollowingRef(texts, skip, search, n) == FollowingRef(texts, skip, search, n - 1)
  {
  }

  /** FOLLOWING with a non-negative `skip`: each box containing `search` is
      paired with the box `1 + skip` places after it, and the pairs that
      run off the end of the page contribute nothing. */
  lemma {:induction false} FollowingSelectsAfterMatches(texts: seq<string>, skip: int, search: string, n: nat)
    requires skip >= 0 && n <= |texts|
    ensures PagePieces(texts, Following, skip, search, n) == Ok(FollowingRef(texts, skip, search, n))
  {
    if n > 0 {
      FollowingSelectsAfterMatches(texts, skip, search, n - 1);
      var acc := FollowingRef(texts, skip, search, n - 1);
      var c: seq<string> := if S.Contains(texts[n - 1], search) && n + skip < |texts|
                            then [texts[n + skip]] else [];
      FollowingStep(texts, skip, search, n - 1);
      PiecesStep(texts, Following, skip, search, n, acc, c);
      if n + skip < |texts| {
        FollowingExtendIn(texts, skip, search, n, acc);
      } else {
        FollowingExtendOut(texts, skip, search, n);
        assert acc + c == acc;
      }
    }
  }

  /** One box more for PRECEDING, when the box it points to is on the page. */
  lemma PrecedingExtendIn(texts: seq<string>, skip: int, search: string, n: nat, acc: seq<string>)
    requires skip >= 0 && 0 < n <= |texts| && n - 2 - skip >= 0
    requires acc == PrecedingRef(texts, skip, search, n - 1)
    ensures PrecedingRef(texts, skip, search, n)
            == acc + (if S.Contains(texts[n - 1], search) then [texts[n - 2 - skip]] else [])
  {
    PrecedingRefInRange(texts, skip, search, n - 1, n - 2 - skip);
    PrecedingRefInRange(texts, skip, search, n, n - 1 - skip);
    SelectWhereSlices(texts, search, 1 + skip, n - 1, n, 0, n - 2 - skip, n - 1 - skip);
  }

  /** Once the box `1 + skip` places back is on the page, PRECEDING pairs
      the boxes from `1 + skip` to `m` with the first `end` boxes. */
  lemma PrecedingRefInRange(texts: seq<string>, skip: int, search: string, m: nat, end: nat)
    requires skip >= 0 && 1 + skip <= m <= |texts| && end == m - 1 - skip
    ensures PrecedingRef(texts, skip, search, m) == SelectWhere(texts[1 + skip..m], texts[0..end], search)
  {
  }

  /** One box more for PRECEDING, when the box it points to is off the page. */
  lemma PrecedingExtendOut(texts: seq<string>, skip: int, search: string, n: nat)
    requires skip >= 0 && 0 < n <= |texts| && n - 2 - skip < 0
    ensures PrecedingRef(texts, skip, search, n) == [] && PrecedingRef(texts, skip, search, n - 1) == []
  {
    if n == 1 + skip {
      assert texts[1 + skip..n] == [];
    }
  }

  /** PRECEDING with a non-negative `skip`: each box containing `search` is
      paired with the box `1 + skip` places before it, and the pairs that
      run off the start of the page contribute nothing. */
  lemma {:induction false} PrecedingSelectsBeforeMatches(texts: seq<string>, skip: int, search: string, n: nat)
    requires skip >= 0 && n <= |texts|
    ensures PagePieces(texts, Preceding, skip, search, n) == Ok(PrecedingRef(texts, skip, search, n))
  {
    if n > 0 {
      PrecedingSelectsBeforeMatches(texts, skip, search, n - 1);
      var acc := PrecedingRef(texts, skip, search, n - 1);
      var c: seq<string> := if S.Contains(texts[n - 1], search) && n - 2 - skip >= 0
                            then [texts[n - 2 - skip]] else [];
      PrecedingStep(texts, skip, search, n - 1);
      assert PagePieces(texts, Preceding, skip, search, n - 1) == Ok(acc);
      assert Contribution(texts, Preceding, skip, search, n - 1) == Ok(c);
      PiecesStep(texts, Preceding, skip, search, n, acc, c);
      if n - 2 - skip >= 0 {
        PrecedingExtendIn(texts, skip, search, n, acc);
      } else {
        PrecedingExtendOut(texts, skip, search, n);
        assert acc + c == acc;
      }
    }
  }

  /** With a non-negative skip no strategy ever indexes out of range. */
  lemma NonNegativeSkipSucceeds(texts: seq<string>, kind: ExtractionType, skip: int, search: string, n: nat)
    requires skip >= 0 && n <= |texts|
    ensures PagePieces(texts, kind, skip, search, n).Ok?
  {
    match kind
    case Contains => ContainsSelectsMatches(texts, skip, search, n);
    case Following => FollowingSelectsAfterMatches(texts, skip, search, n);
    case Preceding => PrecedingSelectsBeforeMatches(texts, skip, search, n);
  }

  /** A box matching at the last position contributes nothing to FOLLOWING:
      when no other box matches, the page's result is empty. */
  lemma LastBoxFollowsNothing(texts: seq<string>, skip: int, search: string)
    requires skip >= 0 && |texts| > 0
    requires forall i :: 0 <= i < |texts| - 1 ==> !S.Contains(texts[i], search)
    ensures PagePieces(texts, Following, skip, search, |texts|) == Ok([])
  {
    FollowingSelectsAfterMatches(texts, skip, search, |texts|);
    if 1 + skip <= |texts| {
      var len := |texts| - 1 - skip;
      FollowingRefInRange(texts, skip, search, len, |texts|);
      var keys := texts[0..len];
      assert forall i :: 0 <= i < |keys| ==> keys[i] == texts[i];
      SelectWhereNoMatch(keys, texts[1 + skip..|texts|], search);
    }
  }

  /** Python's negative indexing: with `skip == -1` both FOLLOWING and
      PRECEDING select the matching box itself, exactly as CONTAINS does. */
  lemma {:induction false} SkipMinusOneIsContains(texts: seq<string>, search: string, n: nat)
    requires n <= |texts|
    ensures PagePieces(texts, Following, -1, search, n) == PagePieces(texts, Contains, -1, search, n)
    ensures PagePieces(texts, Preceding, -1, search, n) == PagePieces(texts, Contains, -1, search, n)
  {
    if n > 0 {
      SkipMinusOneIsContains(texts, search, n - 1);
    }
  }

  /** The number of boxes among the first `n` that contain `search`. */
  function MatchCount(texts: seq<string>, search: string, n: nat): nat
    requires n <= |texts|
  {
    if n == 0 then 0
    else MatchCount(texts, search, n - 1) + (if S.Contains(texts[n - 1], search) then 1 else 0)
  }

  /** Whatever the strategy and skip, a page contributes at most one piece
      per matching box, and every piece is one of the page's box texts. */
  lemma {:induction false} PiecesBounded(texts: seq<string>, kind: ExtractionType, skip: int,
                                         search: string, n: nat)
    requires n <= |texts|
    requires PagePieces(texts, kind, skip, search, n).Ok?
    ensures |PagePieces(texts, kind, skip, search, n).value| <= MatchCount(texts, search, n)
    ensures forall x :: x in PagePieces(texts, kind, skip, search, n).value ==> x in texts
  {
    if n > 0 {
      PiecesBounded(texts, kind, skip, search, n - 1);
    }
  }

  /** When no box of the page contains `search` the page adds nothing,
      whatever the strategy and skip. */
  lemma {:induction false} NoMatchNoPieces(texts: seq<string>, kind: ExtractionType, skip: int,
                                           search: string, n: nat)
    requires n <= |texts|
    requires forall i :: 0 <= i < n ==> !S.Contains(texts[i], search)
    ensures PagePieces(texts, kind, skip, search, n) == Ok([])
  {
    if n > 0 {
      NoMatchNoPieces(texts, kind, skip, search, n - 1);
      assert Contribution(texts, kind, skip, search, n - 1) == Ok([]);
      var none: seq<string> := [];
      assert none + none == none;
    }
  }

  /** When no box of any readable page contains `search`, the result is
      the empty string and not an error. */
  lemma {:induction false} NoMatchIsEmpty(pdf: seq<PageRead>, kind: ExtractionType, skip: int, search: string)
    requires forall j :: 0 <= j < |pdf| ==> pdf[j].Page?
    requires forall j, t :: 0 <= j < |pdf| && t in BoxTexts(pdf[j].elements) ==> !S.Contains(t, search)
    ensures ExtractText(pdf, kind, skip, search) == ""
  {
    if |pdf| > 0 {
      var init := pdf[..|pdf| - 1];
      assert forall j :: 0 <= j < |init| ==> init[j] == pdf[j];
      NoMatchIsEmpty(init, kind, skip, search);
      var texts := BoxTexts(pdf[|pdf| - 1].elements);
      forall i | 0 <= i < |texts| ensures !S.Contains(texts[i], search) {
        assert texts[i] in texts;
      }
      NoMatchNoPieces(texts, kind, skip, search, |texts|);
    }
  }

  /** Every selected piece appears verbatim in the page's output, so two
      matching boxes under CONTAINS both show up in the result. */
  lemma {:induction false} PieceInOutput(pieces: seq<string>, i: nat)
    requires i < |pieces|
    ensures S.Contains(Concat(pieces), pieces[i])
  {
    var off := OffsetOf(pieces, i);
    S.ContainsAt(Concat(pieces), pieces[i], off);
  }

  /** Where piece `i` starts in the concatenation. */
  lemma {:induction false} OffsetOf(pieces: seq<string>, i: nat) returns (off: nat)
    requires i < |pieces|
    ensures off + |pieces[i]| <= |Concat(pieces)|
    ensures Concat(pieces)[off..off + |pieces[i]|] == pieces[i]
  {
    var whole := Concat(pieces);
    assert whole == pieces[0] + Concat(pieces[1..]);
    if i == 0 {
      off := 0;
      assert whole[..|pieces[0]|] == pieces[0];
    } else {
      var j := OffsetOf(pieces[1..], i - 1);
      off := |pieces[0]| + j;
      assert whole[off..off + |pieces[i]|] == Concat(pieces[1..])[j..j + |pieces[i]|];
    }
  }

  // ---------------------------------------------------------------------
  // A worked layout

  /** Which boxes of the worked layout contain "Ref". */
  lemma ScenarioMatches()
    ensures S.Contains("Ref", "Ref")
    ensures !S.Contains("Name", "Ref")
    ensures !S.Contains("1 RUE X\n75000 PARIS", "Ref")
  {
    assert S.StartsAt("Ref", "Ref", 0);
    S.MissingCharNotContained("Name", "Ref", 'f');
    S.MissingCharNotContained("1 RUE X\n75000 PARIS", "Ref", 'f');
  }

  /** Three boxes where only the first matches: FOLLOWING picks the
      second box with skip 0 and the third with skip 1. */
  lemma FollowingThreeBoxes(a: string, b: string, c: string, search: string)
    requires S.Contains(a, search) && !S.Contains(b, search) && !S.Contains(c, search)
    ensures PagePieces([a, b, c], Following, 0, search, 3) == Ok([b])
    ensures PagePieces([a, b, c], Following, 1, search, 3) == Ok([c])
  {
    var texts := [a, b, c];
    FollowingSelectsAfterMatches(texts, 0, search, 3);
    FollowingSelectsAfterMatches(texts, 1, search, 3);
    assert texts[..2] == [a, b] && texts[1..3] == [b, c];
    assert [a, b][1..] == [b] && [b, c][1..] == [c];
    assert [b][1..] == [] && [c][1..] == [];
    assert SelectWhere([b], [c], search) == [];
    assert SelectWhere([a, b], [b, c], search) == [b];
    assert texts[..1] == [a] && texts[2..3] == [c];
    assert [a][1..] == [];
    assert SelectWhere([a], [c], search) == [c];
  }

  /** Boxes "Ref", "Name" and a two-line address, searched for "Ref":
      FOLLOWING picks "Name" with skip 0 and the address with skip 1. */
  lemma FollowingScenario()
    ensures PagePieces(["Ref", "Name", "1 RUE X\n75000 PARIS"], Following, 0, "Ref", 3) == Ok(["Name"])
    ensures PagePieces(["Ref", "Name", "1 RUE X\n75000 PARIS"], Following, 1, "Ref", 3)
            == Ok(["1 RUE X\n75000 PARIS"])
  {
    ScenarioMatches();
    FollowingThreeBoxes("Ref", "Name", "1 RUE X\n75000 PARIS", "Ref");
  }

}

=== FILE: lines.dfy ===
/** Python's `str.splitlines()`, `"\n".join(...)` and the newline translation
    that a text-mode `open(...).read()` applies. */
module Lines {

  /** The characters `str.splitlines()` treats as line boundaries
      ("\r\n" is one boundary of width two, see `BreakWidth`). */
  predicate IsLineBreak(c: char) {
    || c == '\n' || c == '\r' || c == '\U{0B}' || c == '\U{0C}'
    || c == '\U{1C}' || c == '\U{1D}' || c == '\U{1E}'
    || c == '\U{85}' || c == '\U{2028}' || c == '\U{2029}'
  }

  /** A string that `splitlines` keeps as one line. */
  predicate NoBreaks(s: string) {
    forall k :: 0 <= k < |s| ==> !IsLineBreak(s[k])
  }

  /** Index of the first line boundary of `s`, or `|s|` when there is none. */
  function BreakIndex(s: string): (r: nat)
    ensures r <= |s|
    ensures forall k :: 0 <= k < r ==> !IsLineBreak(s[k])
    ensures r < |s| ==> IsLineBreak(s[r])
  {
    if |s| == 0 then 0
    else if IsLineBreak(s[0]) then 0
    else 1 + BreakIndex(s[1..])
  }

  /** Width of the boundary starting at `i`: "\r\n" counts as one boundary. */
  function BreakWidth(s: string, i: nat): nat
    requires i < |s|
  {
    if s[i] == '\r' && i + 1 < |s| && s[i + 1] == '\n' then 2 else 1
  }

  /** `s.splitlines()`: the text between boundaries; a final boundary does not
      open an extra empty line, and the empty string has no lines. */
  function SplitLines(s: string): seq<string>
    decreases |s|
  {
    if |s| == 0 then []
    else
      var i := BreakIndex(s);
      if i == |s| then [s]
      else [s[..i]] + SplitLines(s[i + BreakWidth(s, i)..])
  }

  /** `"\n".join(ls)`. */
  function JoinLines(ls: seq<string>): string
  {
    if |ls| == 0 then ""
    else if |ls| == 1 then ls[0]
    else ls[0] + "\n" + JoinLines(ls[1..])
  }

  /** The contents a text-mode read returns for file contents `raw`:
      both "\r\n" and a lone "\r" become "\n". */
  function ReadText(raw: string): (r: string)
    ensures '\r' !in r
    ensures '\r' !in raw ==> r == raw
  {
    if |raw| == 0 then ""
    else if raw[0] == '\r' then
      if |raw| > 1 && raw[1] == '\n' then "\n" + ReadText(raw[2..])
      else "\n" + ReadText(raw[1..])
    else [raw[0]] + ReadText(raw[1..])
  }

  /** The two translations a text-mode read applies, on small texts. */
  lemma ReadTextExamples()
    ensures ReadText("a\r\nb") == "a\nb"
    ensures ReadText("a\rb") == "a\nb"
    ensures ReadText("a\r\rb") == "a\n\nb"
  {
  }

  /** A read translates nothing before the first "\r". */
  lemma {:induction false} ReadTextPrefix(a: string, b: string)
    requires '\r' !in a
    ensures ReadText(a + b) == a + ReadText(b)
  {
    if |a| > 0 {
      var s := a + b;
      assert s[0] == a[0] && s[0] != '\r';
      assert s[1..] == a[1..] + b;
      assert ReadText(s) == [a[0]] + ReadText(s[1..]);
      ReadTextPrefix(a[1..], b);
      assert a == [a[0]] + a[1..];
    } else {
      assert a + b == b;
    }
  }

  /** A line, one boundary other than "\r", then the rest: `splitlines`
      cuts at that boundary. */
  lemma SplitLinesAt(a: string, c: char, t: string)
    requires NoBreaks(a) && IsLineBreak(c) && c != '\r'
    ensures SplitLines(a + ([c] + t)) == [a] + SplitLines(t)
  {
    var s := a + ([c] + t);
    BreakIndexAt(a, c, t);
    assert s[..|a|] == a;
    assert s[|a| + 1..] == t;
  }

  /** The first boundary after a line without boundaries is the one that
      ends it. */
  lemma {:induction false} BreakIndexAt(a: string, c: char, t: string)
    requires NoBreaks(a) && IsLineBreak(c)
    ensures BreakIndex(a + ([c] + t)) == |a|
  {
    if |a| > 0 {
      assert (a + ([c] + t))[1..] == a[1..] + ([c] + t);
      BreakIndexAt(a[1..], c, t);
    }
  }

  /** A text-mode read changes no line `splitlines` finds: "\r\n" and a
      lone "\r" both become the single boundary "\n". */
  lemma {:induction false} ReadTextKeepsLines(raw: string)
    ensures SplitLines(ReadText(raw)) == SplitLines(raw)
    decreases |raw|
  {
    if |raw| > 0 {
      var i := BreakIndex(raw);
      if i < |raw| {
        var w := BreakWidth(raw, i);
        var rest := raw[i + w..];
        var c := ReadTextAtBreak(raw, i);
        ReadTextKeepsLines(rest);
        var t := ReadText(rest);
        SplitLinesAt(raw[..i], c, t);
      } else {
        assert '\r' !in raw;
      }
    }
  }

  /** Read across the first boundary of `raw`, at `i`: the line before it
      is kept, the boundary becomes the single character `c`, which is not
      "\r", and the rest is read on. */
  lemma ReadTextAtBreak(raw: string, i: nat) returns (c: char)
    requires i == BreakIndex(raw) < |raw|
    ensures IsLineBreak(c) && c != '\r'
    ensures ReadText(raw) == raw[..i] + ([c] + ReadText(raw[i + BreakWidth(raw, i)..]))
  {
    var a, tail, w := raw[..i], raw[i..], BreakWidth(raw, i);
    LineBeforeBreak(raw, i);
    ReadTextPrefix(a, tail);
    c := ReadTextOfBreak(tail);
  }

  /** The text before the first boundary holds no "\r", and the boundary
      itself is the same seen from `raw` or from its start. */
  lemma LineBeforeBreak(raw: string, i: nat)
    requires i == BreakIndex(raw) < |raw|
    ensures '\r' !in raw[..i]
    ensures raw == raw[..i] + raw[i..]
    ensures BreakWidth(raw[i..], 0) == BreakWidth(raw, i)
    ensures raw[i..][BreakWidth(raw, i)..] == raw[i + BreakWidth(raw, i)..]
  {
    var a, tail := raw[..i], raw[i..];
    assert '\r' !in a by {
      forall k | 0 <= k < |a| ensures a[k] != '\r' {
        assert a[k] == raw[k];
      }
    }
    assert tail[0] == raw[i];
    if |tail| > 1 {
      assert tail[1] == raw[i + 1];
    }
  }

  /** A read of a text that starts with a boundary: the boundary becomes
      the single character `c`, which is not "\r". */
  lemma ReadTextOfBreak(s: string) returns (c: char)
    requires |s| > 0 && IsLineBreak(s[0])
    ensures IsLineBreak(c) && c != '\r'
    ensures ReadText(s) == [c] + ReadText(s[BreakWidth(s, 0)..])
  {
    c := if s[0] == '\r' then '\n' else s[0];
  }

  /** After a line without boundaries, the first boundary is the "\n"
      that ends it. */
  lemma BreakIndexOfLine(a: string, b: string)
    requires NoBreaks(a)
    ensures BreakIndex(a + "\n" + b) == |a|
    ensures BreakIndex(a) == |a|
  {
    if |a| > 0 {
      assert (a + "\n" + b)[1..] == a[1..] + "\n" + b;
      BreakIndexOfLine(a[1..], b);
    }
  }

  /** Every line `splitlines` returns is free of boundary characters. */
  lemma {:induction false} SplitLinesHaveNoBreaks(s: string)
    ensures forall l :: l in SplitLines(s) ==> NoBreaks(l)
    decreases |s|
  {
    if |s| > 0 {
      var i := BreakIndex(s);
      if i < |s| {
        SplitLinesHaveNoBreaks(s[i + BreakWidth(s, i)..]);
      }
    }
  }

  /** Joining lines with "\n" and splitting again gives the lines back,
      provided no line holds a boundary and the last line is not empty
      (a trailing empty line is swallowed by `splitlines`). */
  lemma {:induction false} SplitJoin(ls: seq<string>)
    requires forall k :: 0 <= k < |ls| ==> NoBreaks(ls[k])
    requires |ls| == 0 || ls[|ls| - 1] != ""
    ensures SplitLines(JoinLines(ls)) == ls
  {
    if |ls| == 1 {
      BreakIndexOfLine(ls[0], "");
    } else if |ls| > 1 {
      var s := JoinLines(ls);
      var rest := JoinLines(ls[1..]);
      assert s == ls[0] + "\n" + rest;
      BreakIndexOfLine(ls[0], rest);
      assert s[..|ls[0]|] == ls[0];
      assert BreakWidth(s, |ls[0]|) == 1;
      assert s[|ls[0]| + 1..] == rest;
      SplitJoin(ls[1..]);
    }
  }

  /** A final "\n" after the joined lines opens no extra line. */
  lemma {:induction false} SplitJoinNewline(ls: seq<string>)
    requires |ls| > 0
    requires forall k :: 0 <= k < |ls| ==> NoBreaks(ls[k])
    ensures SplitLines(JoinLines(ls) + "\n") == ls
  {
    var s := JoinLines(ls) + "\n";
    var rest := if |ls| == 1 then "" else JoinLines(ls[1..]) + "\n";
    assert s == ls[0] + "\n" + rest;
    BreakIndexOfLine(ls[0], rest);
    assert s[..|ls[0]|] == ls[0];
    assert BreakWidth(s, |ls[0]|) == 1;
    assert s[|ls[0]| + 1..] == rest;
    if |ls| > 1 {
      SplitJoinNewline(ls[1..]);
    }
  }

  /** A single break-free, non-empty line survives `splitlines` unchanged. */
  lemma SplitSingleLine(s: string)
    requires s != "" && NoBreaks(s)
    ensures SplitLines(s) == [s]
  {
    BreakIndexOfLine(s, "");
  }

}

=== FILE: manual_edit.dfy ===
/** `manual_edit`: the payload is written to a temporary file, an editor is
    launched on it, and the file is read back once a second until its
    contents differ from what was written. The host and the successive
    contents the polling loop reads are inputs; a finite list of snapshots
    stands for the operator's unbounded editing session. */
module ManualEdit {
  import opened Results
  import opened Lines
  import PS = PyStrings

  /** The two shapes `manual_edit` takes and gives back: one string, or a
      list of lines. */
  datatype Payload = Text(text: string) | LineList(lines: seq<string>)

  /** `os.name`, with `os.uname().sysname` for POSIX hosts. */
  datatype Host = Nt | Posix(sysname: string) | OtherOs(name: string)

  /** The machine `manual_edit` runs on: its host system and the path the
      temporary file was given. */
  datatype Machine = Machine(os: Host, tempPath: string)

  /** `UnsupportedOs` is the exception raised for an unknown host;
      `StillWaiting` means that no read in the session differed from the
      written text, so the source would still be polling. */
  datatype EditError = UnsupportedOs | StillWaiting

  /** The text written to the temporary file: a list is joined with "\n". */
  function Serialise(p: Payload): string {
    match p
    case Text(t) => t
    case LineList(ls) => JoinLines(ls)
  }

  /** The shell command that opens the editor on the file at `path`, or
      `None` when the host has no known editor. */
  function EditorCommand(host: Host, path: string): (r: Option<string>)
    ensures r.None? <==> host.OtherOs?
    ensures r.Some? ==> PS.Contains(r.value, "\"" + path + "\"")
  {
    match host
    case Nt =>
      var cmd := "start notepad.exe " + "\"" + path + "\"";
      PS.ContainsAt(cmd, "\"" + path + "\"", 18);
      Some(cmd)
    case Posix(sysname) =>
      if sysname == "Darwin" then
        var cmd := "open -a TextEdit " + "\"" + path + "\"";
        PS.ContainsAt(cmd, "\"" + path + "\"", 17);
        Some(cmd)
      else
        var cmd := "gedit " + "\"" + path + "\"" + " &";
        PS.ContainsAt(cmd, "\"" + path + "\"", 6);
        Some(cmd)
    case OtherOs(_) => None
  }

  /** The first read of the session that differs from the written text
      `pre`, each read going through text-mode newline translation. */
  function FirstChange(pre: string, snapshots: seq<string>): (r: Option<string>)
    ensures r.None? <==> forall k :: 0 <= k < |snapshots| ==> ReadText(snapshots[k]) == pre
    ensures r.Some? ==> r.value != pre
  {
    if |snapshots| == 0 then None
    else if ReadText(snapshots[0]) != pre then Some(ReadText(snapshots[0]))
    else
      assert forall k :: 1 <= k < |snapshots| ==> snapshots[k] == snapshots[1..][k - 1];
      FirstChange(pre, snapshots[1..])
  }

  /** The change the poll reports is a read of the session, and every read
      before it still showed the written text. */
  lemma {:induction false} FirstChangeIsFirst(pre: string, snapshots: seq<string>)
    requires FirstChange(pre, snapshots).Some?
    ensures exists k :: 0 <= k < |snapshots| && FirstChange(pre, snapshots).value == ReadText(snapshots[k])
                        && forall j :: 0 <= j < k ==> ReadText(snapshots[j]) == pre
  {
    if ReadText(snapshots[0]) == pre {
      var rest := snapshots[1..];
      FirstChangeIsFirst(pre, rest);
      var k :| 0 <= k < |rest| && FirstChange(pre, rest).value == ReadText(rest[k])
               && forall j :: 0 <= j < k ==> ReadText(rest[j]) == pre;
      assert forall j :: 1 <= j <= k ==> snapshots[j] == rest[j - 1];
      assert FirstChange(pre, snapshots).value == ReadText(snapshots[k + 1]);
    } else {
      assert FirstChange(pre, snapshots).value == ReadText(snapshots[0]);
    }
  }

  /** The polling loop of the source: it stops at the first read that
      differs from the written text. */
  method Poll(pre: string, snapshots: seq<string>) returns (r: Option<string>)
    ensures r == FirstChange(pre, snapshots)
  {
    var result := pre;
    var k := 0;
    while pre == result && k < |snapshots|
      invariant 0 <= k <= |snapshots|
      invariant pre == result ==> FirstChange(pre, snapshots) == FirstChange(pre, snapshots[k..])
      invariant pre != result ==> FirstChange(pre, snapshots) == Some(result)
    {
      assert snapshots[k..][1..] == snapshots[k + 1..];
      result := ReadText(snapshots[k]);
      k := k + 1;
    }
    if pre == result {
      assert snapshots[k..] == [];
      r := None;
    } else {
      r := Some(result);
    }
  }

  /** `manual_edit(pre)`: the edited contents in the shape of the input —
      a list comes back as the lines of the saved text. */
  function Edit(pre: Payload, host: Machine, snapshots: seq<string>): (r: Result<Payload, EditError>)
    ensures r.Ok? ==> (r.value.LineList? <==> pre.LineList?)
    ensures r.Ok? && pre.Text? ==> r.value.text != pre.text
    ensures r == Err(UnsupportedOs) <==> host.os.OtherOs?
    ensures r == Err(StillWaiting) <==>
              !host.os.OtherOs? && forall k :: 0 <= k < |snapshots| ==> ReadText(snapshots[k]) == Serialise(pre)
  {
    match EditorCommand(host.os, host.tempPath)
    case None => Err(UnsupportedOs)
    case Some(_) =>
      match FirstChange(Serialise(pre), snapshots)
      case None => Err(StillWaiting)
      case Some(saved) =>
        if pre.LineList? then Ok(LineList(SplitLines(saved))) else Ok(Text(saved))
  }

  /** What `manual_edit` gives back is the first read of the session that
      differs from the written text, every earlier read still showing that
      text; a list comes back as the lines of that read. */
  lemma EditGivesFirstChangedRead(pre: Payload, host: Machine, snapshots: seq<string>)
    requires Edit(pre, host, snapshots).Ok?
    ensures exists k :: 0 <= k < |snapshots| && ReadText(snapshots[k]) != Serialise(pre)
              && (forall j :: 0 <= j < k ==> ReadText(snapshots[j]) == Serialise(pre))
              && Edit(pre, host, snapshots).value
                 == (if pre.LineList? then LineList(SplitLines(ReadText(snapshots[k])))
                     else Text(ReadText(snapshots[k])))
  {
    var w := Serialise(pre);
    FirstChangeIsFirst(w, snapshots);
    var k :| 0 <= k < |snapshots| && FirstChange(w, snapshots).value == ReadText(snapshots[k])
             && forall j :: 0 <= j < k ==> ReadText(snapshots[j]) == w;
  }

  /** A list edited into other break-free lines (the last one not empty)
      comes back as exactly those lines. */
  lemma EditedListComesBack(ls: seq<string>, edited: seq<string>, host: Machine)
    requires !host.os.OtherOs?
    requires forall k :: 0 <= k < |ls| ==> NoBreaks(ls[k])
    requires forall k :: 0 <= k < |edited| ==> NoBreaks(edited[k])
    requires |edited| == 0 || edited[|edited| - 1] != ""
    requires JoinLines(edited) != JoinLines(ls)
    ensures Edit(LineList(ls), host, [JoinLines(ls), JoinLines(edited)]) == Ok(LineList(edited))
  {
    var pre, saved := JoinLines(ls), JoinLines(edited);
    NoBreaksNoCarriageReturn(pre, ls);
    NoBreaksNoCarriageReturn(saved, edited);
    assert ReadText(pre) == pre && ReadText(saved) == saved;
    assert [pre, saved][1..] == [saved];
    assert FirstChange(pre, [saved]) == Some(saved);
    assert FirstChange(pre, [pre, saved]) == Some(saved);
    SplitJoin(edited);
  }

  /** Lines free of boundaries, joined by "\n", hold no "\r". */
  lemma {:induction false} NoBreaksNoCarriageReturn(s: string, ls: seq<string>)
    requires s == JoinLines(ls)
    requires forall k :: 0 <= k < |ls| ==> NoBreaks(ls[k])
    ensures '\r' !in s
    decreases |ls|
  {
    if |ls| == 1 {
      assert IsLineBreak('\r');
    } else if |ls| > 1 {
      assert forall k :: 1 <= k < |ls| ==> ls[k] == ls[1..][k - 1];
      NoBreaksNoCarriageReturn(JoinLines(ls[1..]), ls[1..]);
      assert '\r' !in ls[0];
    }
  }

  /** ["a", "b"], edited to "a\nc", comes back as ["a", "c"]. */
  lemma ListEditExample()
    ensures Edit(LineList(["a", "b"]), Machine(Posix("Linux"), "/tmp/edit.txt"), ["a\nb", "a\nc"]) == Ok(LineList(["a", "c"]))
  {
    assert JoinLines(["a", "b"]) == "a\nb";
    assert JoinLines(["a", "c"]) == "a\nc";
    EditedListComesBack(["a", "b"], ["a", "c"], Machine(Posix("Linux"), "/tmp/edit.txt"));
  }

  /** An editor that only adds a final newline ends the wait, yet the list
      comes back unchanged: the change test looks at the text, not at the
      lines. */
  lemma TrailingNewlineEndsWait(ls: seq<string>, host: Machine)
    requires !host.os.OtherOs?
    requires |ls| > 0 && ls[|ls| - 1] != ""
    requires forall k :: 0 <= k < |ls| ==> NoBreaks(ls[k])
    ensures Edit(LineList(ls), host, [JoinLines(ls) + "\n"]) == Ok(LineList(ls))
  {
    var s := JoinLines(ls);
    NoBreaksNoCarriageReturn(s, ls);
    assert '\r' !in s + "\n";
    assert s + "\n" != s by { assert |s + "\n"| == |s| + 1; }
    SplitJoinNewline(ls);
  }


  /** The file is read back in text mode, so a written text holding "\r"
      never reads back as itself: the wait ends at the first read, before
      the operator has saved anything. */
  lemma CarriageReturnEndsWaitAtOnce(t: string, host: Machine)
    requires !host.os.OtherOs? && '\r' in t
    ensures Edit(Text(t), host, [t]) == Ok(Text(ReadText(t)))
  {
    assert ReadText(t) != t;
  }

}

=== FILE: numerals.dfy ===
/** Decimal numerals as Python reads and writes them: `s.isdigit()`,
    `int(s)` on a digit string, and `str(n)` for a natural number.
    Only the ASCII digits 0-9 are modelled. */
module Numerals {

  predicate IsDigit(c: char) {
    '0' <= c <= '9'
  }

  /** `s.isdigit()`: non-empty and made of digits only. */
  predicate IsDigitString(s: string) {
    |s| > 0 && forall k :: 0 <= k < |s| ==> IsDigit(s[k])
  }

  function DigitValue(c: char): nat
    requires IsDigit(c)
  {
    c as int - '0' as int
  }

  function DigitChar(d: nat): (c: char)
    requires d < 10
    ensures IsDigit(c) && DigitValue(c) == d
  {
    ('0' as int + d) as char
  }

  /** `int(s)` for a digit string; leading zeros are allowed ("007" is 7). */
  function Value(s: string): nat
    requires forall k :: 0 <= k < |s| ==> IsDigit(s[k])
  {
    if |s| == 0 then 0 else 10 * Value(s[..|s| - 1]) + DigitValue(s[|s| - 1])
  }

  /** `str(n)`: the shortest decimal numeral of `n`. */
  function Show(n: nat): (s: string)
    ensures IsDigitString(s)
    ensures |s| > 1 ==> s[0] != '0'
  {
    if n < 10 then [DigitChar(n)] else Show(n / 10) + [DigitChar(n % 10)]
  }

  /** Reading back what `str` wrote gives the number again. */
  lemma {:induction false} ValueOfShow(n: nat)
    ensures Value(Show(n)) == n
  {
    if n >= 10 {
      var s := Show(n);
      assert s[..|s| - 1] == Show(n / 10);
      ValueOfShow(n / 10);
    }
  }

  /** Different numbers are written differently. */
  lemma ShowInjective(m: nat, n: nat)
    requires Show(m) == Show(n)
    ensures m == n
  {
    ValueOfShow(m);
    ValueOfShow(n);
  }

  /** The number of digits `s` starts with. */
  function LeadingDigits(s: string): (n: nat)
    ensures n <= |s|
  {
    if |s| > 0 && IsDigit(s[0]) then 1 + LeadingDigits(s[1..]) else 0
  }

  /** A numeral followed by a non-digit: the leading digits are the
      numeral's. */
  lemma {:induction false} LeadingDigitsOfNumeral(a: string, t: string)
    requires forall k :: 0 <= k < |a| ==> IsDigit(a[k])
    requires |t| > 0 && !IsDigit(t[0])
    ensures LeadingDigits(a + t) == |a|
  {
    if |a| > 0 {
      assert (a + t)[0] == a[0];
      assert (a + t)[1..] == a[1..] + t;
      LeadingDigitsOfNumeral(a[1..], t);
    } else {
      assert a + t == t;
    }
  }

  /** A leading zero keeps the value but not the spelling. */
  lemma {:induction false} LeadingZero(s: string)
    requires forall k :: 0 <= k < |s| ==> IsDigit(s[k])
    ensures Value("0" + s) == Value(s)
  {
    if |s| > 0 {
      var t := "0" + s;
      assert t[..|t| - 1] == "0" + s[..|s| - 1];
      LeadingZero(s[..|s| - 1]);
    }
  }

}

=== FILE: pystrings.dfy ===
/** Python's `str.strip()`, the `in` operator on strings, and the
    `" ".join(s.split(" ", 1)[:1])` idiom that keeps the text before the
    first space. */
module PyStrings {

  /** `c.isspace()`: the whitespace characters of Python's `str`. */
  predicate IsSpace(c: char) {
    || ('\t' <= c <= '\r') || ('\U{1C}' <= c <= '\U{1F}') || c == ' '
    || c == '\U{85}' || c == '\U{A0}' || c == '\U{1680}'
    || ('\U{2000}' <= c <= '\U{200A}') || c == '\U{2028}' || c == '\U{2029}'
    || c == '\U{202F}' || c == '\U{205F}' || c == '\U{3000}'
  }

  predicate AllSpace(s: string) {
    forall k :: 0 <= k < |s| ==> IsSpace(s[k])
  }

  /** The number of whitespace characters `s` starts with. */
  function LeadingSpace(s: string): (n: nat)
    ensures n <= |s|
  {
    if |s| > 0 && IsSpace(s[0]) then 1 + LeadingSpace(s[1..]) else 0
  }

  /** The number of whitespace characters `s` ends with. */
  function TrailingSpace(s: string): (n: nat)
    ensures n <= |s|
  {
    if |s| > 0 && IsSpace(s[|s| - 1]) then 1 + TrailingSpace(s[..|s| - 1]) else 0
  }

  /** `LeadingSpace` counts whitespace only, and all of it. */
  lemma {:induction false} LeadingSpaceIsSpace(s: string)
    ensures AllSpace(s[..LeadingSpace(s)])
    ensures LeadingSpace(s) < |s| ==> !IsSpace(s[LeadingSpace(s)])
  {
    if |s| > 0 && IsSpace(s[0]) {
      var n := LeadingSpace(s[1..]);
      LeadingSpaceIsSpace(s[1..]);
      var pre := s[..1 + n];
      forall k | 0 <= k < |pre| ensures IsSpace(pre[k]) {
        if k > 0 {
          assert pre[k] == s[1..][..n][k - 1];
        }
      }
      if 1 + n < |s| {
        assert s[1 + n] == s[1..][n];
      }
    }
  }

  /** `TrailingSpace` counts whitespace only, and all of it. */
  lemma {:induction false} TrailingSpaceIsSpace(s: string)
    ensures AllSpace(s[|s| - TrailingSpace(s)..])
    ensures TrailingSpace(s) < |s| ==> !IsSpace(s[|s| - 1 - TrailingSpace(s)])
  {
    if |s| > 0 && IsSpace(s[|s| - 1]) {
      var p := s[..|s| - 1];
      var n := TrailingSpace(p);
      TrailingSpaceIsSpace(p);
      assert TrailingSpace(s) == 1 + n;
      var suf := s[|s| - 1 - n..];
      var psuf := p[|p| - n..];
      forall k | 0 <= k < |suf| ensures IsSpace(suf[k]) {
        if k < n {
          assert suf[k] == psuf[k];
        } else {
          assert suf[k] == s[|s| - 1];
        }
      }
      if 1 + n < |s| {
        assert s[|s| - 2 - n] == p[|p| - 1 - n];
      }
    }
  }

  /** `s.strip()`: `s` with its leading and trailing whitespace removed;
      the result neither starts nor ends with whitespace. */
  function Strip(s: string): (r: string)
    ensures |r| <= |s|
    ensures r == "" || (!IsSpace(r[0]) && !IsSpace(r[|r| - 1]))
  {
    var a := LeadingSpace(s);
    var t := TrailingSpace(s[a..]);
    StripEnds(s, a, t);
    s[a..|s| - t]
  }

  /** The first and last characters `Strip` keeps are not whitespace. */
  lemma StripEnds(s: string, a: nat, t: nat)
    requires a == LeadingSpace(s) && t == TrailingSpace(s[a..])
    ensures a <= |s| - t
    ensures var r := s[a..|s| - t]; r == "" || (!IsSpace(r[0]) && !IsSpace(r[|r| - 1]))
  {
    var left := s[a..];
    LeadingSpaceIsSpace(s);
    TrailingSpaceIsSpace(left);
    if a < |s| - t {
      assert s[a..|s| - t][0] == s[a];
      assert s[a..|s| - t][|s| - t - a - 1] == left[|left| - 1 - t];
    }
  }

  /** What `Strip` cuts off: `Strip(s)` sits at offset `a` in `s`, and
      everything before and after it is whitespace. */
  lemma StripCutsOnlySpace(s: string) returns (a: nat)
    ensures a + |Strip(s)| <= |s| && Strip(s) == s[a..a + |Strip(s)|]
    ensures AllSpace(s[..a]) && AllSpace(s[a + |Strip(s)|..])
  {
    a := LeadingSpace(s);
    var t := TrailingSpace(s[a..]);
    assert Strip(s) == s[a..|s| - t];
    assert a + |Strip(s)| == |s| - t;
    LeadingSpaceIsSpace(s);
    TrailingSpaceAfter(s, a, t);
  }

  /** The whitespace `rstrip` finds after offset `a` is the whitespace `s`
      ends with. */
  lemma TrailingSpaceAfter(s: string, a: nat, t: nat)
    requires a <= |s| && t == TrailingSpace(s[a..])
    ensures AllSpace(s[|s| - t..])
  {
    TrailingSpaceIsSpace(s[a..]);
    assert s[|s| - t..] == s[a..][|s| - a - t..];
  }

  /** `s` begins with `sub`. */
  predicate StartsWith(s: string, sub: string) {
    |sub| <= |s| && s[..|sub|] == sub
  }

  /** `sub` occurs in `s` at offset `i`. */
  predicate StartsAt(s: string, sub: string, i: int) {
    0 <= i && i + |sub| <= |s| && s[i..i + |sub|] == sub
  }

  /** `sub in s`: `sub` occurs in `s` at some offset (the empty string
      occurs everywhere). */
  predicate Contains(s: string, sub: string) {
    exists i :: 0 <= i <= |s| && StartsAt(s, sub, i)
  }

  /** A slice of `s` equal to `sub` makes `sub in s` hold. */
  lemma ContainsAt(s: string, sub: string, i: nat)
    requires i + |sub| <= |s| && s[i..i + |sub|] == sub
    ensures Contains(s, sub)
  {
    assert StartsAt(s, sub, i);
  }

  /** A string holding a character that `sub` needs but `s` lacks cannot
      contain `sub`. */
  lemma MissingCharNotContained(s: string, sub: string, c: char)
    requires c in sub && c !in s
    ensures !Contains(s, sub)
  {
    var j :| 0 <= j < |sub| && sub[j] == c;
    forall i | 0 <= i && i + |sub| <= |s| ensures !StartsAt(s, sub, i) {
      assert s[i..i + |sub|][j] == s[i + j];
    }
  }

  /** `" ".join(s.split(" ", 1)[:1])`: the text of `s` before its first
      space, or all of `s` when it has no space. */
  function BeforeFirstSpace(s: string): (r: string)
    ensures |r| <= |s| && r == s[..|r|]
    ensures ' ' !in r
    ensures |r| < |s| ==> s[|r|] == ' '
  {
    if |s| == 0 || s[0] == ' ' then "" else [s[0]] + BeforeFirstSpace(s[1..])
  }

}

=== FILE: results.dfy ===
/** Failure-carrying values shared by every module of the model. A Python
    exception that escapes a routine becomes an `Err`; a missing value
    (an unset environment variable, a poll that never saw a change) is `None`. */
module Results {

  datatype Option<+T> = None | Some(value: T)

  datatype Result<+T, +E> = Ok(value: T) | Err(error: E)

}
